=== FILE: README.md ===
# Tick-to-candle aggregation and parameter sweep, in Dafny

This project models the pure pipeline of the Rust model generator in
`src/main.rs`, and proves properties of that model. The pipeline has four
parts:

- **Tick loading.** Each line of a `ts_ms,bid,ask` text is turned into a tick.
  A header in the first line is skipped. Rows with fewer than three fields
  are dropped. A field that does not parse becomes zero.
- **Candle aggregation.** `ticks_to_candles` folds the ticks into OHLC
  candles of `interval_ms` each, on half-open windows `[start, end)`. The
  program passes one minute (60000 ms). The windows lie on the
  grid anchored at the first tick, and windows without ticks produce no
  candle.
- **Parameter sweep.** The built-in grid, or the grid file, is enumerated
  as a four-deep Cartesian product (Donchian length, RR minimum, session,
  spread cap). A candidate record is built for every combination.
- **Ranking.** Candidates are scored as `pf_bt - 10 * dd_bt`. A copy of
  the candidate list is stably sorted by descending score, and the first
  `min(k, n)` are kept.

Modules, one per concern of the source:

| module | file | what it holds |
|---|---|---|
| `Wrappers` | wrappers.dfy | `Option` and `Result` |
| `Market` | market.dfy | `Tick`, `Candle`, spread, max/min bid, mean |
| `Candles` | candles.dfy | the functional specification of `ticks_to_candles` and the imperative loop verified against it |
| `CandleProperties` | candle_props.dfy | properties for every input: window arithmetic, OHLC order, the unreachable spread fallback, examples |
| `CandleReference` | candle_reference.dfy | an independent description, "one summary per run of ticks sharing a window", proved equal to the aggregator for sorted input |
| `SortedCandles` | candle_sorted.dfy | what the reference gives for sorted input: containment of every tick in its candle's window, and the open of each new candle |
| `Text` | text.dfy | Rust's `str::split` on a character, `str::contains` and `str::trim` |
| `TickLoader` | tick_loader.dfy | the line logic of `load_ticks` and its loop |
| `Sweep` | sweep.dfy | the grid, the nested sweep loops and `build_candidate` |
| `Ranking` | ranking.dfy | `score_candidate`, the stable sort and the top-K cut |
| `Pipeline` | pipeline.dfy | sweep mode end to end, with the summary counts |

Several things that the source gets from the standard library or the
operating system are parameters of the model instead:

- Numeric parsing is `TickLoader.Parsers`: a text either parses to a value
  or it does not.
- The wall clock is `clock(n)`, the stamp read while the `n`-th candidate
  is built.
- A line read and a grid-file read are `Result` values.

The backtest `run_strategy` is defined in the program itself
(src/main.rs:221-278), but its formulas are placeholders that ignore the
candles. It is also a parameter: a function from the candles and one
parameter set to `Metrics`.

## Model

| member | source | states |
|---|---|---|
| Market.Spread | src/main.rs:183-194 | the spread `(ask - bid).abs()` is never negative and is `ask - bid` or `bid - ask` |
| Candles.Seed | src/main.rs:144-152 | the first tick opens a window one interval long starting at its timestamp, with its bid as open, high, low and close, and no spread counted yet |
| Candles.Advance | src/main.rs:173-176 | the advance loop lands on a window one interval long. It is unchanged when the tick lies before its end; otherwise it starts at or after the old end and holds the tick |
| Candles.AdvanceLoop | src/main.rs:173-176 | the `while` loop that moves the window computes the same window as `Advance` |
| Candles.MidSpread | src/main.rs:157-161 | the average spread is the mean when some spread was counted, 0 otherwise, and never negative for a non-negative sum |
| Candles.Closed | src/main.rs:154-213 | from any state, the processed ticks flush between one bucket and one more bucket than there are ticks, and the last bucket is one interval long |
| Candles.Step | src/main.rs:155-196 | one tick flushes the open bucket exactly when it is at or past the window end, and then the flushed bucket is the old one unchanged; the bucket after it is one interval long, holds the tick and closes at its bid. `ClosedUnfold` and `ClosedInvariant` state what this means for the emitted candles |
| Candles.Flush | src/main.rs:157-170 | a flushed candle keeps the bucket's window and OHLC values, and its average spread is the mean of the counted spreads, or 0 when none was counted; an OHLC-ordered bucket gives an OHLC-ordered candle |
| Candles.Absorb | src/main.rs:186-195 | a tick in the open window keeps the window and the open, raises the high or lowers the low to its bid when it goes past them, sets the close to its bid and counts its spread once; OHLC order is kept |
| Candles.Reopen | src/main.rs:172-184 | a tick at or past the window end opens a window one interval long that starts at or after the old end and holds the tick, with the tick's bid as open, high, low and close and its spread as the only one counted |
| Candles.ClosedBuckets | src/main.rs:138-152 | no ticks give no buckets (the early return), and otherwise the seeded pass flushes between one bucket and one per tick |
| Candles.TicksToCandles | src/main.rs:137-216 | no ticks give no candles, and otherwise there are at most as many candles as ticks |
| Candles.ClosedUnfold | src/main.rs:155-196 | a tick at or past the window end emits the current candle and reopens; an earlier tick is absorbed without emitting |
| Candles.TicksToCandlesLoop | src/main.rs:137-216 | the imperative single pass, with its mutable OHLC and spread variables, returns exactly the specified candles |
| Candles.FlushVars | src/main.rs:157-170 | the flush written on the loop's variables, with its `spread_cnt > 0` test, builds exactly the candle `Flush` describes |
| Candles.ReopenVars | src/main.rs:172-184 | the new-bucket branch on the loop's variables (advance loop, then every price set to the tick's bid and the count to 1) builds exactly the bucket `Reopen` describes, one interval long |
| Candles.AbsorbVars | src/main.rs:185-196 | the same-bucket branch on the loop's variables, with its two `if` updates of high and low, builds exactly the bucket `Absorb` describes |
| CandleProperties.AdvanceOnGrid | src/main.rs:173-176 | advancing keeps the window start on the grid `t0 + m * interval` |
| CandleProperties.ClosedInvariant | src/main.rs:144-196 | every flushed bucket is one interval long and on the grid, has `low <= open, close <= high`, a non-negative spread sum and at least one counted spread; consecutive windows do not overlap |
| CandleProperties.FirstTickAbsorbed | src/main.rs:144-154 | tick 0 seeds the bucket and then passes through the same-bucket branch, so its spread is counted once |
| CandleProperties.SpreadFallbackUnreachable | src/main.rs:157-161 | every flushed bucket has counted at least one spread, so the zero fallback of both flushes is never taken |
| CandleProperties.CandlesWellFormed | src/main.rs:137-216 | no candles exactly when there are no ticks, at most as many candles as ticks, and the first starts at the first tick. Every candle is one interval long, on the grid anchored at the first tick, no earlier than the previous one's end, OHLC-ordered, with a non-negative average spread |
| CandleProperties.LastTickClosesLastCandle | src/main.rs:199-213 | for any order of timestamps, the last tick's bid is the last candle's close and its timestamp is before the last candle's end |
| CandleProperties.ThreeTicksTwoCandles | src/main.rs:154-213 | two ticks in the first window and one in the next give two candles. They have exactly the expected open, high, low, close, windows and average spreads, with tick 0's spread counted once |
| CandleProperties.TwoMinuteExample | src/main.rs:137-216 | ticks at 0, 30000 and 70000 ms give the candles `[0, 60000)` and `[60000, 120000)` |
| CandleProperties.GapExample | src/main.rs:173-176 | a silent gap produces no candle: the window jumps from `[0, 60000)` to `[240000, 300000)` |
| CandleReference.AdvanceToIndex | src/main.rs:173-176 | the advance loop stops at the window of the tick's grid index `(ts - t0) / interval` |
| CandleReference.ClosedMatchesGroups | src/main.rs:154-213 | from a bucket that has absorbed part of a run, the aggregator emits the summary of that whole run, then the summaries of the later runs |
| CandleReference.CandlesMatchReference | src/main.rs:137-216 | for non-decreasing timestamps the aggregator emits exactly one summary per maximal run of ticks sharing a window. Each summary gives the run's first and last bid, its extreme bids and its mean spread |
| SortedCandles.RunsOfSortedTicks | src/main.rs:154-176 | the runs of a sorted stream partition it, each lies in one window, and consecutive runs lie in strictly later windows |
| SortedCandles.CandlesOfSortedTicks | src/main.rs:155-182 | for sorted input, every tick lies in `[start, end)` of the candle it contributed to. Each later candle is opened by a tick at or past the previous end, and that tick's bid is its open |
| SortedCandles.LastTickInsideLastWindow | src/main.rs:199-213 | for sorted input the last tick lies inside the last candle's window |
| Text.Split | src/main.rs:123 | `split(',')` gives one piece more than there are separators |
| Text.SplitPieces | src/main.rs:123 | no piece contains the separator, and joining the pieces with it gives the line back |
| Text.SplitJoin | src/main.rs:123 | splitting a join of separator-free pieces gives the pieces back |
| Text.Contains | src/main.rs:119 | `contains` holds exactly when the substring occurs at some position |
| Text.Trim | src/main.rs:127-129 | `trim` returns a piece no longer than the field that neither starts nor ends with whitespace |
| Text.TrimSlice | src/main.rs:127-129 | `trim` returns a slice of the field that neither starts nor ends with whitespace, and everything cut away is whitespace |
| Text.TrimIdempotent | src/main.rs:127-129 | trimming a trimmed field changes nothing |
| TickLoader.IsHeader | src/main.rs:119 | the first line is a header exactly when `ts_ms`, `bid` and `ask` each occur in it somewhere |
| TickLoader.OrZero | src/main.rs:127-129 | `unwrap_or`: a parsed value is kept, and a rejected field gives the fallback |
| TickLoader.FieldsTick | src/main.rs:127-131 | each field is trimmed before it is parsed, and a field the parser rejects becomes 0 |
| TickLoader.SurroundingSpaceIgnored | src/main.rs:127-129 | whitespace around the three fields does not change the tick |
| TickLoader.ParseLine | src/main.rs:123-131 | a line yields no tick exactly when it has fewer than two commas, that is, fewer than three fields |
| TickLoader.ParseRows | src/main.rs:115-132 | at most one tick per line, and one per line exactly when every line has three or more fields |
| TickLoader.LoadLines | src/main.rs:115-133 | at most one tick per line, and strictly fewer when the first line is a header |
| TickLoader.Texts | src/main.rs:116 | reading succeeds exactly when every line was read, with the lines' texts in order; otherwise it fails with the first failed read |
| TickLoader.LoadTicks | src/main.rs:110-134 | loading fails exactly when some line failed to read, and returns at most one tick per line otherwise |
| TickLoader.ExtraFieldsIgnored | src/main.rs:123-131 | `ts,bid,ask` followed by nothing or by more fields yields the tick of the first three fields; the rest are ignored |
| TickLoader.ParseRowsAppend | src/main.rs:115-132 | each data line is parsed on its own, so the ticks of two runs of lines are concatenated in line order |
| TickLoader.HeaderOnlyFirst | src/main.rs:117-122 | the header rule concerns the first line only: the lines after it are parsed as data |
| TickLoader.HeaderSkipped | src/main.rs:117-121 | a first line containing `ts_ms`, `bid` and `ask` is skipped |
| TickLoader.RepeatedHeaderIsZeroTick | src/main.rs:117-131 | a header line that is not first is not skipped; with parsers that reject the column names it becomes the tick `(0, 0, 0)` |
| TickLoader.LoadTicksLoop | src/main.rs:114-133 | the line loop, with its header check, field-count check and early return on a read error, computes `LoadTicks` |
| Sweep.BuildParamGrid | src/main.rs:350-371 | no grid file gives the built-in grid; a grid file gives exactly its own grid, or its read or decode error |
| Sweep.BuildCandidate | src/main.rs:281-306 | the candidate copies the symbol, parameters and metrics unchanged, and its id names the same symbol, Donchian length, RR minimum and session (the spread cap is not part of the id) |
| Sweep.Combos | src/main.rs:389-400 | the sweep has `|donch| * |rr| * |sessions| * |spreads|` combinations |
| Sweep.Candidates | src/main.rs:387-400 | the sweep builds one candidate per combination, `|donch| * |rr| * |sessions| * |spreads|` in all |
| Sweep.SpreadRowAt | src/main.rs:392-396 | the innermost loop visits the spread caps in their listed order, one combination each, the other three parameters fixed |
| Sweep.SessionBlockAt | src/main.rs:391-397 | within one `(donch, rr)` pair, session `k` owns the `|spreads|` positions starting at `k * |spreads|` |
| Sweep.RrBlockAt | src/main.rs:390-398 | within one Donchian length, RR minimum `j` owns the block of `|sessions| * |spreads|` positions starting at `j` times that size |
| Sweep.DonchBlockAt | src/main.rs:389-399 | Donchian length `i` owns the block of `|rr| * |sessions| * |spreads|` positions starting at `i` times that size |
| Sweep.ComboAt | src/main.rs:389-400 | position `((i * |rr| + j) * |sessions| + k) * |spreads| + l` holds exactly `(donch[i], rr[j], sessions[k], spreads[l])` |
| Sweep.StampedAt | src/main.rs:393-396 | counting from turn `first`, the `n`-th candidate built is for the `n`-th combination, with the strategy's metrics for it and the clock reading of turn `first + n` |
| Sweep.CandidateAt | src/main.rs:389-397 | each candidate at that position carries its combination's parameters, the strategy's metrics for them, and an id naming them |
| Sweep.DefaultGridSize | src/main.rs:363-370 | the built-in grid has 18 combinations |
| Sweep.DefaultOrder | src/main.rs:365-368 | the built-in sweep starts `(20, 1.8, london)`, `(20, 1.8, nyopen)`, `(20, 2.0, london)`, reaches Donchian 30 at position 6, and ends with `(40, 2.5, nyopen)` |
| Sweep.GridFileReplaces | src/main.rs:353-361 | a grid file replaces all four dimensions; an empty dimension in it gives an empty sweep |
| Sweep.SweepLoop | src/main.rs:387-400 | the four nested loops, pushing one candidate per combination, produce exactly `Candidates` |
| Sweep.RrLoop | src/main.rs:390-398 | the RR loop for Donchian length `i` extends a prefix of `Candidates` ending at that length's first position to one ending at the next length's first position |
| Sweep.SessionLoop | src/main.rs:391-397 | the session loop for `(i, j)` extends a prefix of `Candidates` by exactly the block of that RR minimum |
| Sweep.SpreadLoop | src/main.rs:392-396 | the spread loop for `(i, j, k)` runs the strategy once per spread cap and extends a prefix of `Candidates` by exactly that session's candidates |
| Ranking.Score | src/main.rs:309-312 | the score is the backtest profit factor minus ten times the backtest drawdown |
| Ranking.ScoreOrder | src/main.rs:309-312 | a higher profit factor or a lower drawdown never lowers the score, and strictly raises it when either is strictly better |
| Ranking.Insert | src/main.rs:336 | inserting adds exactly the inserted candidate and nothing else |
| Ranking.SortByScore | src/main.rs:334-336 | the sorted copy holds exactly the candidates of the input, each as often |
| Ranking.InsertDescending | src/main.rs:336 | inserting into a descending list keeps it descending |
| Ranking.InsertMultiset | src/main.rs:336 | inserting adds exactly the inserted candidate |
| Ranking.InsertStable | src/main.rs:336 | a candidate is inserted behind every candidate of equal score |
| Ranking.SortOrdersAndPermutes | src/main.rs:334-336 | the sorted copy is in descending score order and is a permutation of the candidates |
| Ranking.SortStable | src/main.rs:336 | the sort is stable: the candidates of each score keep their input order |
| Ranking.TopK | src/main.rs:338 | the top list has `min(k, n)` entries |
| Ranking.TopKOrdered | src/main.rs:334-344 | the kept list is non-increasing in score and a sub-multiset of the input |
| Ranking.TopKKeepsBest | src/main.rs:334-344 | every kept candidate scores at least as high as every dropped one |
| Ranking.TopKTiesInOrder | src/main.rs:334-344 | for each score, the kept candidates of that score are the first ones of it in input order |
| Ranking.TiesKeepOrder | src/main.rs:336 | two candidates of equal score come out of the sort in their input order |
| Pipeline.RunSweep | src/main.rs:375-417 | sweep mode succeeds exactly when every line was read and the grid file, if given, loaded. It builds one candidate per combination of the grid in use; the summary's `generated` is that number and `top_kept` is `min(n, 5)`; the kept candidates are in descending score order and drawn from all of them |
| Pipeline.DefaultSweep | src/main.rs:375-417 | without a grid file the sweep generates 18 candidates and keeps 5; the kept ones are in descending order, drawn from the 18, and score at least as high as every candidate left out |

## Behaviour of the code that is easy to misread

The model follows the code in each of these places.

- **Tick 0 goes through the loop.** Tick 0 seeds the bucket
  (src/main.rs:144-152), and the loop at src/main.rs:154 then runs over
  every tick, tick 0 included. Tick 0 passes through the same-bucket
  branch, so its spread is counted once and its bid re-sets the close.
- **The zero-count fallback is unreachable.** Both flushes fall back to an
  average spread of 0 when no spread was counted (src/main.rs:157-161,
  200-204). Because tick 0 is absorbed, every flushed bucket has counted at
  least one spread (`SpreadFallbackUnreachable`). The fallback is modelled
  but never taken, as long as no window holds 2^32 ticks (see "Left out").
- **The sort is stable.** The ranking uses `sort_by` (src/main.rs:336),
  which is Rust's stable sort, not `sort_unstable_by`. Candidates of equal
  score stay in sweep order (`SortStable`, `TiesKeepOrder`).
- **Grid dimensions may be empty.** A grid file is taken as it is
  (src/main.rs:353-361), with no check that a dimension is non-empty. An
  empty dimension gives an empty sweep (`GridFileReplaces`).
- **Window containment needs sorted input.** Only for non-decreasing
  timestamps does every tick lie inside its candle's window. A tick earlier
  than the window start takes the same-bucket branch, because src/main.rs:155
  only tests against the window end. The last tick's bid is the last close
  whatever the order (`LastTickClosesLastCandle`).

## Left out

- Command-line parsing, single-run mode and its `expect` aborts
  (src/main.rs:10-45, 418-452): argument plumbing, not part of the sweep.
- File I/O: opening and reading the tick file, creating `./out`, and
  writing the two candidate files (src/main.rs:110-116, 315-329, 339-343).
  These are side effects. Line reads are `Result` values, and the candidates
  that would be written are part of `RunSweep`'s result.
- `BufRead::lines` splitting the file into lines and stripping `\n` or
  `\r\n`: the model starts from the sequence of lines.
- JSON via serde: decoding the grid file and encoding candidates and the
  summary. A decoded grid file is a `Result<Grid, E>`.
- `now_millis` and the text of the model id with `{:.2}` rounding
  (src/main.rs:102-107, 289-293). The clock is a parameter, and the id is
  kept as its components.
- The `run_strategy` formulas (src/main.rs:221-278): placeholder floating
  point arithmetic that ignores the candles. They are a strategy parameter.
- Numeric parsing of `u64` and `f64` text (src/main.rs:127-129). It is the
  `Parsers` parameter; only the fallback to zero is modelled.
- Floating point: prices are reals, so rounding is not modelled, and
  neither are NaN and the infinities. Rust's `f64` parse accepts `NaN`,
  `inf` and `1e400` (infinite), so the source can build a candle from a
  NaN bid, or get a NaN spread from an infinite bid and ask.
- CandleProperties.CandlesWellFormed: proves the OHLC order
  `low <= open, close <= high` and the non-negative average spread for
  finite prices only. With a NaN bid every comparison fails, and with
  `inf` for both bid and ask the spread `inf - inf` is NaN, so neither
  property holds in the source for such input.
- Candles.TicksToCandles: does not model `u64` overflow of
  `bucket_start + interval_ms` or of the timestamps, which are unbounded
  naturals.
- CandleProperties.SpreadFallbackUnreachable: the spread count is an
  unbounded natural, while the source's `spread_cnt` is a `u32`
  (src/main.rs:152, 195). After 2^32 ticks in one window, a debug build
  panics and a release build wraps the count to 0. A bucket flushed right
  after such a wrap takes the 0.0 fallback of src/main.rs:157-161 or
  200-204. So the fallback is unreachable only for windows with fewer than
  2^32 ticks.
- Candles.TicksToCandles: requires `interval_ms > 0`. With 0 the advance
  loop of src/main.rs:173-176 never terminates.
- Ranking.SortByScore: does not model the panic of
  `partial_cmp(..).unwrap()` on a NaN score, which reals cannot express.
- Ranking.TopK: the caller's candidate list is a value, so "the input is
  not modified" holds by construction and has no separate lemma.

=== FILE: candle_props.dfy ===
/**
  Properties of `ticks_to_candles` that hold for every tick sequence, sorted
  or not: the window arithmetic, the OHLC ordering of every candle, and the
  fact that the zero-count spread fallback is never taken.
*/
module CandleProperties {
  import opened Market
  import opened Candles

  /** `s` lies on the grid of windows anchored at `t0`: `s == t0 + m * intervalMs` for some `m`. */
  predicate OnGrid(s: nat, t0: nat, intervalMs: nat)
    requires intervalMs > 0
  {
    s >= t0 && (s - t0) % intervalMs == 0
  }

  /** What holds of the open bucket once it has absorbed at least one tick. */
  ghost predicate BucketOk(b: Bucket, t0: nat, intervalMs: nat)
    requires intervalMs > 0
  {
    && b.win.end == b.win.start + intervalMs
    && OnGrid(b.win.start, t0, intervalMs)
    && b.low <= b.open <= b.high
    && b.low <= b.close <= b.high
    && b.spreadSum >= 0.0
    && b.spreadCnt >= 1
  }

  /** What every emitted candle satisfies. */
  ghost predicate CandleOk(c: Candle, t0: nat, intervalMs: nat)
    requires intervalMs > 0
  {
    && c.endTs == c.startTs + intervalMs
    && OnGrid(c.startTs, t0, intervalMs)
    && c.low <= c.open <= c.high
    && c.low <= c.close <= c.high
    && c.midSpread >= 0.0
  }

  /** Quotient and remainder are the unique ones (Euclidean division on naturals). */
  lemma DivModUnique(n: nat, q: int, r: int, d: nat)
    requires d > 0 && 0 <= r < d && n == q * d + r
    ensures n / d == q && n % d == r
  {
    var q', r' := n / d, n % d;
    assert n == q' * d + r';
    var k := q - q';
    assert k * d == q * d - q' * d;
    assert k * d == r' - r;
    if k > 0 {
      MulAtLeast(k, d);
    } else if k < 0 {
      MulAtLeast(-k, d);
    }
  }

  lemma MulAtLeast(k: int, d: nat)
    requires k >= 1
    ensures k * d >= d
  {
    assert k * d == (k - 1) * d + d;
    assert (k - 1) * d >= 0;
  }

  lemma ModShift(x: nat, intervalMs: nat)
    requires intervalMs > 0
    ensures (x + intervalMs) % intervalMs == x % intervalMs
  {
    var q, r := x / intervalMs, x % intervalMs;
    assert x + intervalMs == (q + 1) * intervalMs + r;
    DivModUnique(x + intervalMs, q + 1, r, intervalMs);
  }

  /** Advancing a window keeps it on the grid (src/main.rs:173-176). */
  lemma {:induction false} AdvanceOnGrid(w: Window, ts: nat, t0: nat, intervalMs: nat)
    requires intervalMs > 0 && w.end == w.start + intervalMs
    requires OnGrid(w.start, t0, intervalMs)
    ensures OnGrid(Advance(w, ts, intervalMs).start, t0, intervalMs)
    decreases ts + intervalMs - w.end
  {
    if ts >= w.end {
      ModShift(w.start - t0, intervalMs);
      assert w.end - t0 == (w.start - t0) + intervalMs;
      AdvanceOnGrid(Window(w.end, w.end + intervalMs), ts, t0, intervalMs);
    }
  }

  /**
    Every bucket flushed from a well-formed state is well-formed, the first
    keeps the window of the state, and each window starts no earlier than the
    previous one ends.
  */
  lemma {:induction false} ClosedInvariant(ticks: seq<Tick>, b: Bucket, t0: nat, intervalMs: nat)
    requires intervalMs > 0
    requires BucketOk(b, t0, intervalMs)
    ensures var r := Closed(ticks, b, intervalMs);
      && r[0].win == b.win
      && (forall k :: 0 <= k < |r| ==> BucketOk(r[k], t0, intervalMs))
      && (forall k :: 0 <= k < |r| - 1 ==> r[k].win.end <= r[k + 1].win.start)
    decreases |ticks|
  {
    if |ticks| > 0 {
      var tk := ticks[0];
      if tk.tsMs >= b.win.end {
        var next := Reopen(b, tk, intervalMs);
        AdvanceOnGrid(b.win, tk.tsMs, t0, intervalMs);
        assert BucketOk(next, t0, intervalMs);
        ClosedInvariant(ticks[1..], next, t0, intervalMs);
      } else {
        ClosedInvariant(ticks[1..], Absorb(b, tk), t0, intervalMs);
      }
    }
  }

  /** The bucket after the first tick has passed through the same-bucket branch. */
  lemma {:induction false} FirstTickAbsorbed(ticks: seq<Tick>, intervalMs: nat)
    requires intervalMs > 0 && |ticks| > 0
    ensures ticks[0].tsMs < Seed(ticks[0], intervalMs).win.end
    ensures ClosedBuckets(ticks, intervalMs)
         == Closed(ticks[1..], Absorb(Seed(ticks[0], intervalMs), ticks[0]), intervalMs)
    ensures BucketOk(Absorb(Seed(ticks[0], intervalMs), ticks[0]), ticks[0].tsMs, intervalMs)
  {
  }

  /**
    Tick 0 seeds the bucket and is then absorbed by it, so every flushed
    bucket has counted at least one spread: the fallback to 0 in the
    average (src/main.rs:157-161, 200-204) is never taken.
  */
  lemma {:induction false} SpreadFallbackUnreachable(ticks: seq<Tick>, intervalMs: nat)
    requires intervalMs > 0
    ensures forall k :: 0 <= k < |ClosedBuckets(ticks, intervalMs)| ==>
      ClosedBuckets(ticks, intervalMs)[k].spreadCnt >= 1
  {
    if |ticks| > 0 {
      FirstTickAbsorbed(ticks, intervalMs);
      ClosedInvariant(ticks[1..], Absorb(Seed(ticks[0], intervalMs), ticks[0]), ticks[0].tsMs, intervalMs);
    }
  }

  /**
    The shape of the candle sequence (src/main.rs:137-216): none for no
    ticks, otherwise between one and as many candles as ticks; the first
    window opens at the first tick; every window is one interval long, on the
    grid anchored at the first tick, and starts no earlier than the previous
    ends; every candle has `low <= open, close <= high` and a non-negative
    average spread.
  */
  lemma {:induction false} CandlesWellFormed(ticks: seq<Tick>, intervalMs: nat)
    requires intervalMs > 0
    ensures var cs := TicksToCandles(ticks, intervalMs);
      && (|ticks| == 0 <==> cs == [])
      && |cs| <= |ticks|
      && (|ticks| > 0 ==>
            && cs[0].startTs == ticks[0].tsMs
            && (forall k :: 0 <= k < |cs| ==> CandleOk(cs[k], ticks[0].tsMs, intervalMs))
            && (forall k :: 0 <= k < |cs| - 1 ==> cs[k].endTs <= cs[k + 1].startTs))
  {
    if |ticks| > 0 {
      var t0 := ticks[0].tsMs;
      var bs := ClosedBuckets(ticks, intervalMs);
      var cs := TicksToCandles(ticks, intervalMs);
      FirstTickAbsorbed(ticks, intervalMs);
      ClosedInvariant(ticks[1..], Absorb(Seed(ticks[0], intervalMs), ticks[0]), t0, intervalMs);
      forall k | 0 <= k < |cs|
        ensures cs[k] == Flush(bs[k]) && CandleOk(cs[k], t0, intervalMs)
      {
        FlushAllIndex(bs, k);
      }
      forall k | 0 <= k < |cs| - 1
        ensures cs[k].endTs <= cs[k + 1].startTs
      {
        FlushAllIndex(bs, k);
        FlushAllIndex(bs, k + 1);
      }
    }
  }

  /** The last tick ends up in the last bucket: it is its close, and it lies before the bucket's end. */
  lemma {:induction false} ClosedLast(ticks: seq<Tick>, b: Bucket, intervalMs: nat)
    requires intervalMs > 0 && b.win.end == b.win.start + intervalMs && |ticks| > 0
    ensures var r := Closed(ticks, b, intervalMs);
      && r[|r| - 1].close == ticks[|ticks| - 1].bid
      && ticks[|ticks| - 1].tsMs < r[|r| - 1].win.end
    decreases |ticks|
  {
    var next := Step(b, ticks[0], intervalMs).1;
    if |ticks| > 1 {
      ClosedLast(ticks[1..], next, intervalMs);
      assert ticks[1..][|ticks| - 2] == ticks[|ticks| - 1];
    }
  }

  /**
    Whatever the order of the timestamps, the last tick contributes to the
    last candle (src/main.rs:172-213): its bid is the candle's close and its
    timestamp lies before the candle's end.
  */
  lemma {:induction false} LastTickClosesLastCandle(ticks: seq<Tick>, intervalMs: nat)
    requires intervalMs > 0 && |ticks| > 0
    ensures var cs := TicksToCandles(ticks, intervalMs);
      && |cs| > 0
      && cs[|cs| - 1].close == ticks[|ticks| - 1].bid
      && ticks[|ticks| - 1].tsMs < cs[|cs| - 1].endTs
  {
    var bs := ClosedBuckets(ticks, intervalMs);
    ClosedLast(ticks, Seed(ticks[0], intervalMs), intervalMs);
    FlushAllIndex(bs, |bs| - 1);
  }

  /**
    Two ticks in the first window and a third in the next one give two
    candles: the first summarises the first two ticks (the first tick's
    spread counted once by the seed's own absorption), the second holds the
    third tick alone.
  */
  lemma ThreeTicksTwoCandles(t0: Tick, t1: Tick, t2: Tick, intervalMs: nat)
    requires intervalMs > 0
    requires t1.tsMs < t0.tsMs + intervalMs <= t2.tsMs < t0.tsMs + 2 * intervalMs
    ensures TicksToCandles([t0, t1, t2], intervalMs)
         == [Candle(t0.tsMs, t0.tsMs + intervalMs, t0.bid,
                    if t1.bid > t0.bid then t1.bid else t0.bid,
                    if t1.bid < t0.bid then t1.bid else t0.bid,
                    t1.bid, (0.0 + Spread(t0) + Spread(t1)) / 2.0),
             Candle(t0.tsMs + intervalMs, t0.tsMs + 2 * intervalMs, t2.bid, t2.bid, t2.bid, t2.bid, Spread(t2) / 1.0)]
  {
    var ticks := [t0, t1, t2];
    var b0 := Seed(t0, intervalMs);
    var b1 := Absorb(b0, t0);
    var b2 := Absorb(b1, t1);
    var b3 := Reopen(b2, t2, intervalMs);
    assert Advance(b2.win, t2.tsMs, intervalMs) == Window(t0.tsMs + intervalMs, t0.tsMs + 2 * intervalMs);
    ClosedUnfold(ticks, 0, b0, intervalMs);
    ClosedUnfold(ticks, 1, b1, intervalMs);
    ClosedUnfold(ticks, 2, b2, intervalMs);
    assert ticks[0..] == ticks;
    assert ticks[3..] == [];
  }

  /**
    Three ticks at 0, 30000 and 70000 ms with one-minute windows give two
    candles, `[0, 60000)` and `[60000, 120000)`: the third tick reaches the
    end of the first window and opens the second, and equal bid and ask give
    a zero average spread.
  */
  lemma TwoMinuteExample()
    ensures TicksToCandles([Tick(0, 1.0, 1.0), Tick(30000, 1.0, 1.0), Tick(70000, 2.0, 2.0)], 60000)
         == [Candle(0, 60000, 1.0, 1.0, 1.0, 1.0, 0.0), Candle(60000, 120000, 2.0, 2.0, 2.0, 2.0, 0.0)]
  {
    ThreeTicksTwoCandles(Tick(0, 1.0, 1.0), Tick(30000, 1.0, 1.0), Tick(70000, 2.0, 2.0), 60000);
  }

  /** A silent gap produces no candle: the window jumps from `[0, 60000)` straight to `[240000, 300000)`. */
  lemma GapExample()
    ensures TicksToCandles([Tick(0, 1.0, 1.5), Tick(250000, 3.0, 3.5)], 60000)
         == [Candle(0, 60000, 1.0, 1.0, 1.0, 1.0, 0.5), Candle(240000, 300000, 3.0, 3.0, 3.0, 3.0, 0.5)]
  {
    assert Advance(Window(180000, 240000), 250000, 60000) == Window(240000, 300000);
    assert Advance(Window(120000, 180000), 250000, 60000) == Window(240000, 300000);
    assert Advance(Window(60000, 120000), 250000, 60000) == Window(240000, 300000);
    assert Advance(Window(0, 60000), 250000, 60000) == Window(240000, 300000);
  }
}

=== FILE: candle_reference.dfy ===
/**
  An independent description of the candles of a time-ordered tick stream,
  and the proof that `ticks_to_candles` computes it.

  Number the windows `[t0 + m * interval, t0 + (m + 1) * interval)` on the
  grid anchored at the first tick `t0`.  For non-decreasing timestamps the
  aggregator emits one candle per maximal run of ticks that share a window,
  in order, and each candle summarises exactly its run: open and close are
  the run's first and last bids, high and low its extreme bids, and the
  average spread the mean of its spreads.  Windows that no tick touches
  produce no candle.
*/
module CandleReference {
  import opened Market
  import opened Candles
  import CandleProperties

  /** Every timestamp is at or after `t0`. */
  ghost predicate AllFrom(ticks: seq<Tick>, t0: nat) {
    forall i :: 0 <= i < |ticks| ==> t0 <= ticks[i].tsMs
  }

  /** The length of the leading run of ticks whose grid index is `w`. */
  function RunLength(ticks: seq<Tick>, t0: nat, intervalMs: nat, w: nat): (k: nat)
    requires intervalMs > 0 && AllFrom(ticks, t0)
    ensures k <= |ticks|
    ensures |ticks| > 0 && GridIndex(ticks[0].tsMs, t0, intervalMs) == w ==> k >= 1
    decreases |ticks|
  {
    if |ticks| == 0 || GridIndex(ticks[0].tsMs, t0, intervalMs) != w then 0
    else 1 + RunLength(ticks[1..], t0, intervalMs, w)
  }

  function Flatten(gs: seq<seq<Tick>>): seq<Tick> {
    if |gs| == 0 then [] else gs[0] + Flatten(gs[1..])
  }

  /** The ticks cut into maximal non-empty runs of equal grid index. */
  function Groups(ticks: seq<Tick>, t0: nat, intervalMs: nat): (gs: seq<seq<Tick>>)
    requires intervalMs > 0 && AllFrom(ticks, t0)
    ensures forall j :: 0 <= j < |gs| ==> |gs[j]| > 0 && AllFrom(gs[j], t0)
    decreases |ticks|
  {
    if |ticks| == 0 then []
    else
      var k := RunLength(ticks, t0, intervalMs, GridIndex(ticks[0].tsMs, t0, intervalMs));
      [ticks[..k]] + Groups(ticks[k..], t0, intervalMs)
  }

  /** The candle that summarises one run of ticks in the window starting at `start`. */
  function Summarize(g: seq<Tick>, start: nat, intervalMs: nat): Candle
    requires |g| > 0
  {
    Candle(start, start + intervalMs, g[0].bid, MaxBid(g), MinBid(g), g[|g| - 1].bid,
           Mean(SpreadTotal(g), |g|))
  }

  /** The start of the grid window holding `ts`. */
  function WindowStart(ts: nat, t0: nat, intervalMs: nat): nat
    requires t0 <= ts && intervalMs > 0
  {
    t0 + GridIndex(ts, t0, intervalMs) * intervalMs
  }

  function SummarizeAll(gs: seq<seq<Tick>>, t0: nat, intervalMs: nat): (cs: seq<Candle>)
    requires intervalMs > 0
    requires forall j :: 0 <= j < |gs| ==> |gs[j]| > 0 && t0 <= gs[j][0].tsMs
    ensures |cs| == |gs|
  {
    if |gs| == 0 then []
    else [Summarize(gs[0], WindowStart(gs[0][0].tsMs, t0, intervalMs), intervalMs)]
         + SummarizeAll(gs[1..], t0, intervalMs)
  }

  /** The reference candles: one summary per run of ticks sharing a window. */
  function Reference(ticks: seq<Tick>, intervalMs: nat): seq<Candle>
    requires intervalMs > 0 && Sorted(ticks)
  {
    if |ticks| == 0 then []
    else
      SortedFromFirst(ticks);
      SummarizeAll(Groups(ticks, ticks[0].tsMs, intervalMs), ticks[0].tsMs, intervalMs)
  }

  lemma {:induction false} SortedFromFirst(ticks: seq<Tick>)
    requires Sorted(ticks) && |ticks| > 0
    ensures AllFrom(ticks, ticks[0].tsMs)
  {
    forall i | 0 <= i < |ticks| ensures ticks[0].tsMs <= ticks[i].tsMs {
      if i > 0 {
        assert ticks[0].tsMs <= ticks[i].tsMs;
      }
    }
  }

  /** Non-decreasing timestamps, stated one neighbour at a time. */
  ghost predicate Chain(ticks: seq<Tick>) {
    |ticks| <= 1 || (ticks[0].tsMs <= ticks[1].tsMs && Chain(ticks[1..]))
  }

  lemma {:induction false} SortedChain(ticks: seq<Tick>)
    requires Sorted(ticks)
    ensures Chain(ticks)
    decreases |ticks|
  {
    if |ticks| > 1 {
      assert Sorted(ticks[1..]) by {
        forall i, j | 0 <= i < j < |ticks| - 1 ensures ticks[1..][i].tsMs <= ticks[1..][j].tsMs {
          assert ticks[1..][i] == ticks[i + 1] && ticks[1..][j] == ticks[j + 1];
        }
      }
      SortedChain(ticks[1..]);
    }
  }

  // ---- grid arithmetic ----

  /** A timestamp lies in the window of its own grid index. */
  lemma InOwnWindow(ts: nat, t0: nat, intervalMs: nat)
    requires t0 <= ts && intervalMs > 0
    ensures WindowStart(ts, t0, intervalMs) <= ts < WindowStart(ts, t0, intervalMs) + intervalMs
  {
    var x := ts - t0;
    assert x == (x / intervalMs) * intervalMs + x % intervalMs;
  }

  /** A timestamp inside window `w` has grid index `w`. */
  lemma IndexOfWindow(ts: nat, t0: nat, intervalMs: nat, w: nat)
    requires intervalMs > 0
    requires t0 + w * intervalMs <= ts < t0 + w * intervalMs + intervalMs
    ensures GridIndex(ts, t0, intervalMs) == w
  {
    CandleProperties.DivModUnique(ts - t0, w, ts - t0 - w * intervalMs, intervalMs);
  }

  /** Grid indices do not decrease along time. */
  lemma IndexMonotone(a: nat, b: nat, t0: nat, intervalMs: nat)
    requires t0 <= a <= b && intervalMs > 0
    ensures GridIndex(a, t0, intervalMs) <= GridIndex(b, t0, intervalMs)
  {
    var qa, qb := GridIndex(a, t0, intervalMs), GridIndex(b, t0, intervalMs);
    InOwnWindow(a, t0, intervalMs);
    InOwnWindow(b, t0, intervalMs);
    if qa > qb {
      CandleProperties.MulAtLeast(qa - qb, intervalMs);
    }
  }

  /** A timestamp past the end of window `w` has a larger grid index. */
  lemma IndexPastWindow(ts: nat, t0: nat, intervalMs: nat, w: nat)
    requires intervalMs > 0 && t0 <= ts
    requires GridIndex(ts, t0, intervalMs) > w
    ensures ts >= t0 + w * intervalMs + intervalMs
  {
    var q := GridIndex(ts, t0, intervalMs);
    InOwnWindow(ts, t0, intervalMs);
    CandleProperties.MulAtLeast(q - w, intervalMs);
    assert q * intervalMs - w * intervalMs == (q - w) * intervalMs;
  }

  /** The advance loop lands on the window of the tick's grid index. */
  lemma {:induction false} AdvanceToIndex(w: nat, ts: nat, t0: nat, intervalMs: nat)
    requires intervalMs > 0 && t0 + w * intervalMs <= ts
    ensures Advance(WindowAt(t0, w, intervalMs), ts, intervalMs)
         == WindowAt(t0, GridIndex(ts, t0, intervalMs), intervalMs)
    decreases ts - w * intervalMs
  {
    var win := WindowAt(t0, w, intervalMs);
    if ts >= win.end {
      assert (w + 1) * intervalMs == w * intervalMs + intervalMs;
      assert Window(win.end, win.end + intervalMs) == WindowAt(t0, w + 1, intervalMs);
      AdvanceToIndex(w + 1, ts, t0, intervalMs);
    } else {
      IndexOfWindow(ts, t0, intervalMs, w);
    }
  }

  // ---- the aggregator's state as a summary of the ticks it absorbed ----

  /** The open bucket after absorbing the run `acc` in window `w`. */
  function BucketOf(acc: seq<Tick>, t0: nat, w: nat, intervalMs: nat): Bucket
    requires |acc| > 0
  {
    Bucket(WindowAt(t0, w, intervalMs), acc[0].bid, MaxBid(acc), MinBid(acc),
           acc[|acc| - 1].bid, SpreadTotal(acc), |acc|)
  }

  lemma {:induction false} AbsorbExtends(acc: seq<Tick>, t: Tick, t0: nat, w: nat, intervalMs: nat)
    requires |acc| > 0
    ensures Absorb(BucketOf(acc, t0, w, intervalMs), t) == BucketOf(acc + [t], t0, w, intervalMs)
  {
    assert (acc + [t])[..|acc|] == acc;
  }

  /** The bucket seeded by a tick and then absorbing it summarises that one tick. */
  lemma {:induction false} SingleBucket(t: Tick, t0: nat, intervalMs: nat)
    requires t.tsMs == t0
    ensures Absorb(Seed(t, intervalMs), t) == BucketOf([t], t0, 0, intervalMs)
  {
    assert [t][..0] == [];
    assert SpreadTotal([t]) == Spread(t);
    assert WindowAt(t0, 0, intervalMs) == Window(t0, t0 + intervalMs);
  }

  lemma {:induction false} FlushSummarizes(acc: seq<Tick>, t0: nat, w: nat, intervalMs: nat)
    requires |acc| > 0
    ensures Flush(BucketOf(acc, t0, w, intervalMs)) == Summarize(acc, t0 + w * intervalMs, intervalMs)
  {
  }

  /**
    The generalised correspondence: from a bucket that has absorbed the run
    `acc` of window `w`, the aggregator emits the summary of `acc` extended
    by the rest of its run, followed by the summaries of the later runs.
  */
  lemma {:induction false} ClosedMatchesGroups(acc: seq<Tick>, rest: seq<Tick>, t0: nat, w: nat, intervalMs: nat)
    requires intervalMs > 0 && |acc| > 0
    requires AllFrom(acc, t0) && AllFrom(rest, t0)
    requires forall i :: 0 <= i < |acc| ==> GridIndex(acc[i].tsMs, t0, intervalMs) == w
    requires Chain(rest)
    requires |rest| > 0 ==> acc[|acc| - 1].tsMs <= rest[0].tsMs
    ensures var k := RunLength(rest, t0, intervalMs, w);
      FlushAll(Closed(rest, BucketOf(acc, t0, w, intervalMs), intervalMs))
      == [Summarize(acc + rest[..k], t0 + w * intervalMs, intervalMs)]
         + SummarizeAll(Groups(rest[k..], t0, intervalMs), t0, intervalMs)
    decreases |rest|, 1
  {
    if |rest| == 0 {
      LastWindowStep(acc, rest, t0, w, intervalMs);
    } else if GridIndex(rest[0].tsMs, t0, intervalMs) == w {
      SameWindowStep(acc, rest, t0, w, intervalMs);
    } else {
      NewWindowStep(acc, rest, t0, w, intervalMs);
      assert RunLength(rest, t0, intervalMs, w) == 0;
      assert acc + rest[..0] == acc;
      assert rest[0..] == rest;
    }
  }

  /** No ticks remain: the open run is flushed as the last candle. */
  lemma {:induction false} LastWindowStep(acc: seq<Tick>, rest: seq<Tick>, t0: nat, w: nat, intervalMs: nat)
    requires intervalMs > 0 && |acc| > 0 && |rest| == 0
    ensures var k := RunLength(rest, t0, intervalMs, w);
      FlushAll(Closed(rest, BucketOf(acc, t0, w, intervalMs), intervalMs))
      == [Summarize(acc + rest[..k], t0 + w * intervalMs, intervalMs)]
         + SummarizeAll(Groups(rest[k..], t0, intervalMs), t0, intervalMs)
  {
    assert acc + rest[..0] == acc;
    FlushSummarizes(acc, t0, w, intervalMs);
    assert FlushAll([BucketOf(acc, t0, w, intervalMs)]) == [Flush(BucketOf(acc, t0, w, intervalMs))];
  }

  /** The next tick shares the open window: it is absorbed and the run grows. */
  lemma {:induction false} SameWindowStep(acc: seq<Tick>, rest: seq<Tick>, t0: nat, w: nat, intervalMs: nat)
    requires intervalMs > 0 && |acc| > 0 && |rest| > 0
    requires AllFrom(acc, t0) && AllFrom(rest, t0)
    requires forall i :: 0 <= i < |acc| ==> GridIndex(acc[i].tsMs, t0, intervalMs) == w
    requires Chain(rest)
    requires |rest| > 0 ==> acc[|acc| - 1].tsMs <= rest[0].tsMs
    requires GridIndex(rest[0].tsMs, t0, intervalMs) == w
    ensures var k := RunLength(rest, t0, intervalMs, w);
      FlushAll(Closed(rest, BucketOf(acc, t0, w, intervalMs), intervalMs))
      == [Summarize(acc + rest[..k], t0 + w * intervalMs, intervalMs)]
         + SummarizeAll(Groups(rest[k..], t0, intervalMs), t0, intervalMs)
    decreases |rest|, 0
  {
    AbsorbStep(acc, rest, t0, w, intervalMs);
    ClosedMatchesGroups(acc + [rest[0]], rest[1..], t0, w, intervalMs);
    RunGrows(acc, rest, t0, w, intervalMs);
  }

  lemma {:induction false} AbsorbStep(acc: seq<Tick>, rest: seq<Tick>, t0: nat, w: nat, intervalMs: nat)
    requires intervalMs > 0 && |acc| > 0 && |rest| > 0 && t0 <= rest[0].tsMs
    requires GridIndex(rest[0].tsMs, t0, intervalMs) == w
    ensures Closed(rest, BucketOf(acc, t0, w, intervalMs), intervalMs)
         == Closed(rest[1..], BucketOf(acc + [rest[0]], t0, w, intervalMs), intervalMs)
  {
    InOwnWindow(rest[0].tsMs, t0, intervalMs);
    AbsorbExtends(acc, rest[0], t0, w, intervalMs);
  }

  lemma {:induction false} RunGrows(acc: seq<Tick>, rest: seq<Tick>, t0: nat, w: nat, intervalMs: nat)
    requires intervalMs > 0 && |rest| > 0 && AllFrom(rest, t0)
    requires GridIndex(rest[0].tsMs, t0, intervalMs) == w
    ensures var k' := RunLength(rest[1..], t0, intervalMs, w);
      && RunLength(rest, t0, intervalMs, w) == k' + 1
      && (acc + [rest[0]]) + rest[1..][..k'] == acc + rest[..k' + 1]
      && rest[1..][k'..] == rest[k' + 1..]
  {
    var k' := RunLength(rest[1..], t0, intervalMs, w);
    assert (acc + [rest[0]]) + rest[1..][..k'] == acc + rest[..k' + 1];
    assert rest[1..][k'..] == rest[k' + 1..];
  }

  /** The next tick lies past the open window: the run is flushed and a new one starts. */
  lemma {:induction false} NewWindowStep(acc: seq<Tick>, rest: seq<Tick>, t0: nat, w: nat, intervalMs: nat)
    requires intervalMs > 0 && |acc| > 0 && |rest| > 0
    requires AllFrom(acc, t0) && AllFrom(rest, t0)
    requires forall i :: 0 <= i < |acc| ==> GridIndex(acc[i].tsMs, t0, intervalMs) == w
    requires Chain(rest)
    requires |rest| > 0 ==> acc[|acc| - 1].tsMs <= rest[0].tsMs
    requires GridIndex(rest[0].tsMs, t0, intervalMs) != w
    ensures
      FlushAll(Closed(rest, BucketOf(acc, t0, w, intervalMs), intervalMs))
      == [Summarize(acc, t0 + w * intervalMs, intervalMs)]
         + SummarizeAll(Groups(rest, t0, intervalMs), t0, intervalMs)
    decreases |rest|, 0
  {
    var wt := GridIndex(rest[0].tsMs, t0, intervalMs);
    assert wt > w by {
      IndexMonotone(acc[|acc| - 1].tsMs, rest[0].tsMs, t0, intervalMs);
    }
    var tail := FlushAll(Closed(rest[1..], BucketOf([rest[0]], t0, wt, intervalMs), intervalMs));
    assert FlushAll(Closed(rest, BucketOf(acc, t0, w, intervalMs), intervalMs))
        == [Summarize(acc, t0 + w * intervalMs, intervalMs)] + tail by {
      FlushStep(acc, rest, t0, w, intervalMs);
    }
    assert tail == SummarizeAll(Groups(rest, t0, intervalMs), t0, intervalMs) by {
      ClosedMatchesGroups([rest[0]], rest[1..], t0, wt, intervalMs);
      GroupsUnfold(rest, t0, wt, intervalMs);
    }
  }

  /** A tick of a later window flushes the open run and opens its own window. */
  lemma {:induction false} FlushStep(acc: seq<Tick>, rest: seq<Tick>, t0: nat, w: nat, intervalMs: nat)
    requires intervalMs > 0 && |acc| > 0 && |rest| > 0 && t0 <= rest[0].tsMs
    requires GridIndex(rest[0].tsMs, t0, intervalMs) > w
    ensures FlushAll(Closed(rest, BucketOf(acc, t0, w, intervalMs), intervalMs))
         == [Summarize(acc, t0 + w * intervalMs, intervalMs)]
            + FlushAll(Closed(rest[1..], BucketOf([rest[0]], t0, GridIndex(rest[0].tsMs, t0, intervalMs), intervalMs), intervalMs))
  {
    var b := BucketOf(acc, t0, w, intervalMs);
    var t := rest[0];
    var wt := GridIndex(t.tsMs, t0, intervalMs);
    IndexPastWindow(t.tsMs, t0, intervalMs, w);
    AdvanceToIndex(w, t.tsMs, t0, intervalMs);
    var next := Reopen(b, t, intervalMs);
    assert [t][..0] == [];
    assert SpreadTotal([t]) == Spread(t);
    assert next == BucketOf([t], t0, wt, intervalMs);
    assert Closed(rest, b, intervalMs) == [b] + Closed(rest[1..], next, intervalMs);
    FlushAllAppend([b], Closed(rest[1..], next, intervalMs));
    FlushSummarizes(acc, t0, w, intervalMs);
  }

  /** The first run of a non-empty stream is its first tick and the rest of its window's ticks. */
  lemma {:induction false} GroupsHead(ticks: seq<Tick>, t0: nat, wt: nat, intervalMs: nat)
    requires intervalMs > 0 && |ticks| > 0 && AllFrom(ticks, t0)
    requires GridIndex(ticks[0].tsMs, t0, intervalMs) == wt
    ensures var k' := RunLength(ticks[1..], t0, intervalMs, wt);
      Groups(ticks, t0, intervalMs)
      == [[ticks[0]] + ticks[1..][..k']] + Groups(ticks[1..][k'..], t0, intervalMs)
  {
    var k' := RunLength(ticks[1..], t0, intervalMs, wt);
    assert RunLength(ticks, t0, intervalMs, wt) == k' + 1;
    assert [ticks[0]] + ticks[1..][..k'] == ticks[..k' + 1];
    assert ticks[1..][k'..] == ticks[k' + 1..];
  }

  /** Summarising a run followed by more runs. */
  lemma SummarizeAllCons(g: seq<Tick>, gs: seq<seq<Tick>>, t0: nat, intervalMs: nat)
    requires intervalMs > 0 && |g| > 0 && t0 <= g[0].tsMs
    requires forall j :: 0 <= j < |gs| ==> |gs[j]| > 0 && t0 <= gs[j][0].tsMs
    ensures SummarizeAll([g] + gs, t0, intervalMs)
         == [Summarize(g, WindowStart(g[0].tsMs, t0, intervalMs), intervalMs)] + SummarizeAll(gs, t0, intervalMs)
  {
    assert ([g] + gs)[1..] == gs;
  }

  /** The first run of a non-empty stream, split as the correspondence consumes it. */
  lemma {:induction false} GroupsUnfold(ticks: seq<Tick>, t0: nat, wt: nat, intervalMs: nat)
    requires intervalMs > 0 && |ticks| > 0 && AllFrom(ticks, t0)
    requires GridIndex(ticks[0].tsMs, t0, intervalMs) == wt
    ensures var k' := RunLength(ticks[1..], t0, intervalMs, wt);
      SummarizeAll(Groups(ticks, t0, intervalMs), t0, intervalMs)
      == [Summarize([ticks[0]] + ticks[1..][..k'], t0 + wt * intervalMs, intervalMs)]
         + SummarizeAll(Groups(ticks[1..][k'..], t0, intervalMs), t0, intervalMs)
  {
    var k' := RunLength(ticks[1..], t0, intervalMs, wt);
    var g := [ticks[0]] + ticks[1..][..k'];
    var gs := Groups(ticks[1..][k'..], t0, intervalMs);
    GroupsHead(ticks, t0, wt, intervalMs);
    assert g[0] == ticks[0];
    assert AllFrom(ticks[1..][k'..], t0) by {
      forall i | 0 <= i < |ticks[1..][k'..]| ensures t0 <= ticks[1..][k'..][i].tsMs {
        assert ticks[1..][k'..][i] == ticks[i + k' + 1];
      }
    }
    SummarizeAllCons(g, gs, t0, intervalMs);
    assert WindowStart(g[0].tsMs, t0, intervalMs) == t0 + wt * intervalMs;
    assert Groups(ticks, t0, intervalMs) == [g] + gs;
  }

  /**
    For non-decreasing timestamps, `ticks_to_candles` (src/main.rs:137-216)
    emits exactly the reference candles.
  */
  lemma {:induction false} CandlesMatchReference(ticks: seq<Tick>, intervalMs: nat)
    requires intervalMs > 0 && Sorted(ticks)
    ensures TicksToCandles(ticks, intervalMs) == Reference(ticks, intervalMs)
  {
    if |ticks| > 0 {
      var t0 := ticks[0].tsMs;
      SortedFromFirst(ticks);
      SortedChain(ticks);
      CandlesUnfold(ticks, t0, intervalMs);
      ReferenceUnfold(ticks, t0, intervalMs);
    }
  }

  /** The first tick seeds the bucket and is absorbed into it. */
  lemma {:induction false} FirstBucket(ticks: seq<Tick>, intervalMs: nat)
    requires intervalMs > 0 && |ticks| > 0
    ensures TicksToCandles(ticks, intervalMs)
         == FlushAll(Closed(ticks[1..], BucketOf([ticks[0]], ticks[0].tsMs, 0, intervalMs), intervalMs))
  {
    CandleProperties.FirstTickAbsorbed(ticks, intervalMs);
    SingleBucket(ticks[0], ticks[0].tsMs, intervalMs);
  }

  /** After the first tick, the rest of a sorted stream meets the correspondence's requirements. */
  lemma {:induction false} RestAfterFirst(ticks: seq<Tick>, t0: nat, intervalMs: nat)
    requires intervalMs > 0 && |ticks| > 0 && t0 == ticks[0].tsMs
    requires Chain(ticks) && AllFrom(ticks, t0)
    ensures AllFrom(ticks[1..], t0) && Chain(ticks[1..])
    ensures |ticks| > 1 ==> ticks[0].tsMs <= ticks[1..][0].tsMs
    ensures GridIndex(ticks[0].tsMs, t0, intervalMs) == 0
  {
    var rest := ticks[1..];
    forall i | 0 <= i < |rest| ensures t0 <= rest[i].tsMs {
      assert rest[i] == ticks[i + 1];
    }
    IndexOfWindow(t0, t0, intervalMs, 0);
  }

  /** The aggregator's output, split after the first run. */
  lemma {:induction false} CandlesUnfold(ticks: seq<Tick>, t0: nat, intervalMs: nat)
    requires intervalMs > 0 && |ticks| > 0 && t0 == ticks[0].tsMs
    requires Chain(ticks) && AllFrom(ticks, t0)
    ensures var k := RunLength(ticks[1..], t0, intervalMs, 0);
      TicksToCandles(ticks, intervalMs)
      == [Summarize([ticks[0]] + ticks[1..][..k], t0, intervalMs)]
         + SummarizeAll(Groups(ticks[1..][k..], t0, intervalMs), t0, intervalMs)
  {
    var acc, rest := [ticks[0]], ticks[1..];
    var w: nat := 0;
    FirstBucket(ticks, intervalMs);
    RestAfterFirst(ticks, t0, intervalMs);
    ClosedMatchesGroups(acc, rest, t0, w, intervalMs);
    assert t0 + w * intervalMs == t0;
  }

  /** The reference candles, split after the first run. */
  lemma {:induction false} ReferenceUnfold(ticks: seq<Tick>, t0: nat, intervalMs: nat)
    requires intervalMs > 0 && Sorted(ticks) && |ticks| > 0 && t0 == ticks[0].tsMs
    requires AllFrom(ticks, t0)
    ensures var k := RunLength(ticks[1..], t0, intervalMs, 0);
      Reference(ticks, intervalMs)
      == [Summarize([ticks[0]] + ticks[1..][..k], t0, intervalMs)]
         + SummarizeAll(Groups(ticks[1..][k..], t0, intervalMs), t0, intervalMs)
  {
    var w: nat := 0;
    IndexOfWindow(t0, t0, intervalMs, w);
    GroupsUnfold(ticks, t0, w, intervalMs);
    assert t0 + w * intervalMs == t0;
  }
}

=== FILE: candle_sorted.dfy ===
/**
  What `ticks_to_candles` promises for a time-ordered tick stream, read off
  the reference description: the candles partition the ticks into runs, every
  tick lies in the window of the candle it contributed to, a new candle is
  opened only by a tick at or past the end of the previous window, and the
  last tick lands in the last candle.
*/
module SortedCandles {
  import opened Market
  import opened Candles
  import CandleProperties
  import opened CandleReference

  /** All ticks of a run share one grid index. */
  ghost predicate SameWindow(g: seq<Tick>, t0: nat, intervalMs: nat)
    requires intervalMs > 0 && |g| > 0 && AllFrom(g, t0)
  {
    forall i :: 0 <= i < |g| ==> GridIndex(g[i].tsMs, t0, intervalMs) == GridIndex(g[0].tsMs, t0, intervalMs)
  }

  /** The runs of a time-ordered stream, cut on the grid anchored at its first tick. */
  function Runs(ticks: seq<Tick>, intervalMs: nat): seq<seq<Tick>>
    requires intervalMs > 0 && Sorted(ticks)
  {
    if |ticks| == 0 then []
    else
      SortedFromFirst(ticks);
      Groups(ticks, ticks[0].tsMs, intervalMs)
  }

  lemma {:induction false} AllFromSuffix(ticks: seq<Tick>, t0: nat, k: nat)
    requires AllFrom(ticks, t0) && k <= |ticks|
    ensures AllFrom(ticks[k..], t0)
  {
    forall i | 0 <= i < |ticks| - k ensures t0 <= ticks[k..][i].tsMs {
      assert ticks[k..][i] == ticks[k + i];
    }
  }

  lemma {:induction false} SortedSuffix(ticks: seq<Tick>, k: nat)
    requires Sorted(ticks) && k <= |ticks|
    ensures Sorted(ticks[k..])
  {
    forall i, j | 0 <= i < j < |ticks| - k ensures ticks[k..][i].tsMs <= ticks[k..][j].tsMs {
      assert ticks[k..][i] == ticks[k + i] && ticks[k..][j] == ticks[k + j];
    }
  }

  /** `RunLength` measures exactly the leading run of index `w`. */
  lemma {:induction false} RunLengthSpec(ticks: seq<Tick>, t0: nat, intervalMs: nat, w: nat)
    requires intervalMs > 0 && AllFrom(ticks, t0)
    ensures var k := RunLength(ticks, t0, intervalMs, w);
      && (forall i :: 0 <= i < k ==> GridIndex(ticks[i].tsMs, t0, intervalMs) == w)
      && (k < |ticks| ==> GridIndex(ticks[k].tsMs, t0, intervalMs) != w)
    decreases |ticks|
  {
    if |ticks| > 0 && GridIndex(ticks[0].tsMs, t0, intervalMs) == w {
      AllFromSuffix(ticks, t0, 1);
      RunLengthSpec(ticks[1..], t0, intervalMs, w);
      var k := RunLength(ticks, t0, intervalMs, w);
      forall i | 0 < i < k ensures GridIndex(ticks[i].tsMs, t0, intervalMs) == w {
        assert ticks[1..][i - 1] == ticks[i];
      }
      if k < |ticks| {
        assert ticks[1..][k - 1] == ticks[k];
      }
    }
  }

  /** One step of `Groups`: the leading run, then the runs of the remainder. */
  lemma {:induction false} GroupsStep(ticks: seq<Tick>, t0: nat, intervalMs: nat)
    requires intervalMs > 0 && AllFrom(ticks, t0) && |ticks| > 0
    ensures var k := RunLength(ticks, t0, intervalMs, GridIndex(ticks[0].tsMs, t0, intervalMs));
      && 1 <= k <= |ticks|
      && AllFrom(ticks[k..], t0)
      && Groups(ticks, t0, intervalMs) == [ticks[..k]] + Groups(ticks[k..], t0, intervalMs)
      && (forall i :: 0 <= i < k ==>
            GridIndex(ticks[i].tsMs, t0, intervalMs) == GridIndex(ticks[0].tsMs, t0, intervalMs))
      && (k < |ticks| ==>
            GridIndex(ticks[k].tsMs, t0, intervalMs) != GridIndex(ticks[0].tsMs, t0, intervalMs))
  {
    var w := GridIndex(ticks[0].tsMs, t0, intervalMs);
    var k := RunLength(ticks, t0, intervalMs, w);
    RunLengthSpec(ticks, t0, intervalMs, w);
    AllFromSuffix(ticks, t0, k);
  }

  /** The runs partition the stream: concatenated, they give back the ticks. */
  lemma {:induction false} GroupsFlatten(ticks: seq<Tick>, t0: nat, intervalMs: nat)
    requires intervalMs > 0 && AllFrom(ticks, t0)
    ensures Flatten(Groups(ticks, t0, intervalMs)) == ticks
    decreases |ticks|
  {
    if |ticks| > 0 {
      GroupsStep(ticks, t0, intervalMs);
      var k := RunLength(ticks, t0, intervalMs, GridIndex(ticks[0].tsMs, t0, intervalMs));
      var gs := Groups(ticks, t0, intervalMs);
      GroupsFlatten(ticks[k..], t0, intervalMs);
      assert gs[1..] == Groups(ticks[k..], t0, intervalMs);
      assert ticks[..k] + ticks[k..] == ticks;
    }
  }

  /** Each run stays inside one window. */
  lemma {:induction false} GroupsSameWindow(ticks: seq<Tick>, t0: nat, intervalMs: nat)
    requires intervalMs > 0 && AllFrom(ticks, t0)
    ensures var gs := Groups(ticks, t0, intervalMs);
      forall j :: 0 <= j < |gs| ==> SameWindow(gs[j], t0, intervalMs)
    decreases |ticks|
  {
    if |ticks| > 0 {
      GroupsStep(ticks, t0, intervalMs);
      var k := RunLength(ticks, t0, intervalMs, GridIndex(ticks[0].tsMs, t0, intervalMs));
      var gs := Groups(ticks, t0, intervalMs);
      var tail := Groups(ticks[k..], t0, intervalMs);
      GroupsSameWindow(ticks[k..], t0, intervalMs);
      assert SameWindow(gs[0], t0, intervalMs) by {
        forall i | 0 <= i < |gs[0]|
          ensures GridIndex(gs[0][i].tsMs, t0, intervalMs) == GridIndex(gs[0][0].tsMs, t0, intervalMs)
        {
          assert gs[0][i] == ticks[i];
        }
      }
      forall j | 1 <= j < |gs| ensures SameWindow(gs[j], t0, intervalMs) {
        assert gs[j] == tail[j - 1];
      }
    }
  }

  /**
    In a time-ordered stream the grid index strictly grows from one run to
    the next: a run ends only at a tick of another window, and that window
    cannot lie behind.
  */
  lemma {:induction false} GroupsRise(ticks: seq<Tick>, t0: nat, intervalMs: nat)
    requires intervalMs > 0 && AllFrom(ticks, t0) && Sorted(ticks)
    ensures var gs := Groups(ticks, t0, intervalMs);
      forall j :: 0 <= j < |gs| - 1 ==>
        GridIndex(gs[j][0].tsMs, t0, intervalMs) < GridIndex(gs[j + 1][0].tsMs, t0, intervalMs)
    decreases |ticks|
  {
    if |ticks| > 0 {
      GroupsStep(ticks, t0, intervalMs);
      var w := GridIndex(ticks[0].tsMs, t0, intervalMs);
      var k := RunLength(ticks, t0, intervalMs, w);
      var gs := Groups(ticks, t0, intervalMs);
      var tail := Groups(ticks[k..], t0, intervalMs);
      SortedSuffix(ticks, k);
      GroupsRise(ticks[k..], t0, intervalMs);
      assert gs[1..] == tail;
      if |gs| > 1 {
        assert k < |ticks|;
        assert gs[1][0] == ticks[k] by {
          GroupsStep(ticks[k..], t0, intervalMs);
          assert ticks[k..][0] == ticks[k];
        }
        IndexMonotone(ticks[k - 1].tsMs, ticks[k].tsMs, t0, intervalMs);
        assert gs[0][0] == ticks[0];
      }
      forall j | 1 <= j < |gs| - 1
        ensures GridIndex(gs[j][0].tsMs, t0, intervalMs) < GridIndex(gs[j + 1][0].tsMs, t0, intervalMs)
      {
        assert gs[j] == tail[j - 1] && gs[j + 1] == tail[j];
      }
    }
  }

  lemma {:induction false} SummarizeAllIndex(gs: seq<seq<Tick>>, t0: nat, intervalMs: nat, j: nat)
    requires intervalMs > 0
    requires forall i :: 0 <= i < |gs| ==> |gs[i]| > 0 && t0 <= gs[i][0].tsMs
    requires j < |gs|
    ensures SummarizeAll(gs, t0, intervalMs)[j]
         == Summarize(gs[j], WindowStart(gs[j][0].tsMs, t0, intervalMs), intervalMs)
    decreases j
  {
    if j > 0 {
      SummarizeAllIndex(gs[1..], t0, intervalMs, j - 1);
    }
  }

  /** The last element of a concatenation of non-empty runs is the last of the last run. */
  lemma {:induction false} FlattenLast(gs: seq<seq<Tick>>)
    requires |gs| > 0 && forall j :: 0 <= j < |gs| ==> |gs[j]| > 0
    ensures |Flatten(gs)| > 0
    ensures Flatten(gs)[|Flatten(gs)| - 1] == gs[|gs| - 1][|gs[|gs| - 1]| - 1]
    decreases |gs|
  {
    if |gs| > 1 {
      FlattenLast(gs[1..]);
    }
  }

  /** The runs are cut well: non-empty, past `t0`, each inside one window. */
  ghost predicate WellCut(gs: seq<seq<Tick>>, t0: nat, intervalMs: nat)
    requires intervalMs > 0
  {
    forall j :: 0 <= j < |gs| ==> |gs[j]| > 0 && AllFrom(gs[j], t0) && SameWindow(gs[j], t0, intervalMs)
  }

  /** Consecutive runs lie in strictly later windows. */
  ghost predicate Rising(gs: seq<seq<Tick>>, t0: nat, intervalMs: nat)
    requires intervalMs > 0 && WellCut(gs, t0, intervalMs)
  {
    forall j :: 0 <= j < |gs| - 1 ==>
      GridIndex(gs[j][0].tsMs, t0, intervalMs) < GridIndex(gs[j + 1][0].tsMs, t0, intervalMs)
  }

  /**
    Candle `j` summarises run `j`: its open, high, low, close and average
    spread are those of the run, every tick of the run lies in its window,
    and a later run begins at or past the end of the previous window, with
    the tick that becomes the candle's open.
  */
  ghost predicate CandleOfRun(cs: seq<Candle>, gs: seq<seq<Tick>>, intervalMs: nat, j: nat)
    requires j < |cs| == |gs|
  {
    && |gs[j]| > 0
    && cs[j] == Summarize(gs[j], cs[j].startTs, intervalMs)
    && (forall i :: 0 <= i < |gs[j]| ==> cs[j].startTs <= gs[j][i].tsMs < cs[j].endTs)
    && (j > 0 ==> gs[j][0].tsMs >= cs[j - 1].endTs && cs[j].open == gs[j][0].bid)
  }

  /** One candle per run, each summarising its run. */
  ghost predicate CandlesOfRuns(cs: seq<Candle>, gs: seq<seq<Tick>>, intervalMs: nat) {
    |cs| == |gs| && forall j :: 0 <= j < |gs| ==> CandleOfRun(cs, gs, intervalMs, j)
  }

  /** Candle `j` of the summaries of well-cut, rising runs. */
  lemma {:induction false} SummaryOfRun(gs: seq<seq<Tick>>, t0: nat, intervalMs: nat, j: nat)
    requires intervalMs > 0 && WellCut(gs, t0, intervalMs) && Rising(gs, t0, intervalMs)
    requires j < |gs|
    ensures CandleOfRun(SummarizeAll(gs, t0, intervalMs), gs, intervalMs, j)
  {
    var cs := SummarizeAll(gs, t0, intervalMs);
    SummarizeAllIndex(gs, t0, intervalMs, j);
    forall i | 0 <= i < |gs[j]| ensures cs[j].startTs <= gs[j][i].tsMs < cs[j].endTs {
      InOwnWindow(gs[j][i].tsMs, t0, intervalMs);
    }
    if j > 0 {
      SummarizeAllIndex(gs, t0, intervalMs, j - 1);
      IndexPastWindow(gs[j][0].tsMs, t0, intervalMs, GridIndex(gs[j - 1][0].tsMs, t0, intervalMs));
    }
  }

  /** The runs of a sorted stream are well cut and rising, and they partition it. */
  lemma {:induction false} RunsOfSortedTicks(ticks: seq<Tick>, intervalMs: nat)
    requires intervalMs > 0 && Sorted(ticks) && |ticks| > 0
    ensures var t0 := ticks[0].tsMs;
      var gs := Runs(ticks, intervalMs);
      && AllFrom(ticks, t0)
      && gs == Groups(ticks, t0, intervalMs)
      && Flatten(gs) == ticks
      && WellCut(gs, t0, intervalMs)
      && Rising(gs, t0, intervalMs)
  {
    var t0 := ticks[0].tsMs;
    SortedFromFirst(ticks);
    GroupsFlatten(ticks, t0, intervalMs);
    GroupsSameWindow(ticks, t0, intervalMs);
    GroupsRise(ticks, t0, intervalMs);
  }

  /**
    For a non-decreasing stream, `ticks_to_candles` (src/main.rs:137-216)
    cuts the ticks into consecutive runs and emits one candle per run, in
    order, each summarising its run as `CandleOfRun` states: in particular
    every tick lies in `[start, end)` of the candle it contributed to, and
    every candle after the first was opened by the tick that reached the
    end of the previous window (src/main.rs:155, 172-182).
  */
  lemma {:induction false} CandlesOfSortedTicks(ticks: seq<Tick>, intervalMs: nat)
    requires intervalMs > 0 && Sorted(ticks)
    ensures Flatten(Runs(ticks, intervalMs)) == ticks
    ensures CandlesOfRuns(TicksToCandles(ticks, intervalMs), Runs(ticks, intervalMs), intervalMs)
  {
    if |ticks| > 0 {
      var t0 := ticks[0].tsMs;
      var gs := Runs(ticks, intervalMs);
      RunsOfSortedTicks(ticks, intervalMs);
      assert TicksToCandles(ticks, intervalMs) == SummarizeAll(gs, t0, intervalMs) by {
        CandlesMatchReference(ticks, intervalMs);
      }
      forall j | 0 <= j < |gs| ensures CandleOfRun(SummarizeAll(gs, t0, intervalMs), gs, intervalMs, j) {
        SummaryOfRun(gs, t0, intervalMs, j);
      }
    }
  }

  /**
    For a non-decreasing stream the last tick lies inside the window of the
    last candle (src/main.rs:199-213).
  */
  lemma {:induction false} LastTickInsideLastWindow(ticks: seq<Tick>, intervalMs: nat)
    requires intervalMs > 0 && Sorted(ticks) && |ticks| > 0
    ensures var cs := TicksToCandles(ticks, intervalMs);
      |cs| > 0 && cs[|cs| - 1].startTs <= ticks[|ticks| - 1].tsMs < cs[|cs| - 1].endTs
  {
    var gs := Runs(ticks, intervalMs);
    var cs := TicksToCandles(ticks, intervalMs);
    CandlesOfSortedTicks(ticks, intervalMs);
    assert forall j :: 0 <= j < |gs| ==> |gs[j]| > 0 by {
      forall j | 0 <= j < |gs| ensures |gs[j]| > 0 {
        assert CandleOfRun(cs, gs, intervalMs, j);
      }
    }
    FlattenLast(gs);
    var last := |gs| - 1;
    assert CandleOfRun(cs, gs, intervalMs, last);
    assert ticks[|ticks| - 1] == gs[last][|gs[last]| - 1];
  }
}

=== FILE: candles.dfy ===
/**
  Tick-to-candle aggregation (`ticks_to_candles`, src/main.rs:137-216).

  The aggregator is a single pass over the ticks that keeps one open bucket.
  `Closed` is its recursive functional specification: it yields the buckets
  in the order in which they are flushed, the final one included, and
  `TicksToCandles` turns each into a candle.  `TicksToCandlesLoop` is the
  imperative loop of the source, proved equal to the specification.
*/
module Candles {
  import opened Wrappers
  import opened Market

  /** The half-open bucket `[start, end)`. */
  datatype Window = Window(start: nat, end: nat)

  /** The aggregator's state between two ticks. */
  datatype Bucket = Bucket(
    win: Window,
    open: real,
    high: real,
    low: real,
    close: real,
    spreadSum: real,
    spreadCnt: nat)

  /** The window of grid index `m` on the grid anchored at `t0`. */
  function WindowAt(t0: nat, m: nat, intervalMs: nat): (w: Window)
    ensures w.end == w.start + intervalMs
  {
    Window(t0 + m * intervalMs, t0 + m * intervalMs + intervalMs)
  }

  /** The grid index of the window that holds timestamp `ts`. */
  function GridIndex(ts: nat, t0: nat, intervalMs: nat): nat
    requires t0 <= ts && intervalMs > 0
  {
    (ts - t0) / intervalMs
  }

  /**
    The advance loop of src/main.rs:173-176: move the window forward by whole
    intervals until `ts` falls before its end.
  */
  function Advance(w: Window, ts: nat, intervalMs: nat): (r: Window)
    requires intervalMs > 0 && w.end == w.start + intervalMs
    ensures r.end == r.start + intervalMs
    ensures ts < w.end ==> r == w
    ensures ts >= w.end ==> w.end <= r.start <= ts < r.end
    decreases ts + intervalMs - w.end
  {
    if ts >= w.end then Advance(Window(w.end, w.end + intervalMs), ts, intervalMs)
    else w
  }

  /**
    The advance loop itself: it stops at the first window whose end lies
    beyond `ts`, having moved by whole intervals.
  */
  method AdvanceLoop(start: nat, end: nat, ts: nat, intervalMs: nat) returns (start': nat, end': nat)
    requires intervalMs > 0 && end == start + intervalMs
    ensures Window(start', end') == Advance(Window(start, end), ts, intervalMs)
  {
    start', end' := start, end;
    while ts >= end'
      invariant end' == start' + intervalMs
      invariant Advance(Window(start', end'), ts, intervalMs) == Advance(Window(start, end), ts, intervalMs)
      decreases ts + intervalMs - end'
    {
      start' := end';
      end' := start' + intervalMs;
    }
  }

  /** The state after the first tick seeds the bucket (src/main.rs:144-152). */
  function Seed(first: Tick, intervalMs: nat): (b: Bucket)
    ensures b.win.start == first.tsMs && b.win.end == b.win.start + intervalMs
    ensures b.open == first.bid && b.high == first.bid && b.low == first.bid && b.close == first.bid
    ensures b.low <= b.open <= b.high && b.low <= b.close <= b.high
    ensures b.spreadSum == 0.0 && b.spreadCnt == 0
  {
    Bucket(Window(first.tsMs, first.tsMs + intervalMs),
           first.bid, first.bid, first.bid, first.bid, 0.0, 0)
  }

  /**
    The average spread written into a flushed candle, with the source's
    fallback to 0 when no spread was accumulated (src/main.rs:157-161, 200-204).
  */
  function MidSpread(spreadSum: real, spreadCnt: nat): (r: real)
    ensures spreadCnt > 0 ==> r == Mean(spreadSum, spreadCnt)
    ensures spreadCnt == 0 ==> r == 0.0
    ensures spreadSum >= 0.0 ==> r >= 0.0
  {
    if spreadCnt > 0 then Mean(spreadSum, spreadCnt) else 0.0
  }

  /** The candle emitted for a bucket. */
  function Flush(b: Bucket): (c: Candle)
    ensures c.startTs == b.win.start && c.endTs == b.win.end
    ensures c.open == b.open && c.high == b.high && c.low == b.low && c.close == b.close
    ensures c.midSpread == MidSpread(b.spreadSum, b.spreadCnt)
    ensures b.spreadCnt > 0 ==> c.midSpread == Mean(b.spreadSum, b.spreadCnt)
    ensures b.spreadSum >= 0.0 ==> c.midSpread >= 0.0
    ensures b.low <= b.open <= b.high && b.low <= b.close <= b.high ==> c.low <= c.open <= c.high && c.low <= c.close <= c.high
  {
    Candle(b.win.start, b.win.end, b.open, b.high, b.low, b.close, MidSpread(b.spreadSum, b.spreadCnt))
  }

  /** The same-bucket update of src/main.rs:185-196. */
  function Absorb(b: Bucket, tk: Tick): (r: Bucket)
    ensures r.win == b.win && r.open == b.open && r.close == tk.bid
    ensures r.high >= b.high && r.high >= tk.bid && (r.high == b.high || r.high == tk.bid)
    ensures r.low <= b.low && r.low <= tk.bid && (r.low == b.low || r.low == tk.bid)
    ensures r.spreadSum == b.spreadSum + Spread(tk) && r.spreadCnt == b.spreadCnt + 1
    ensures b.low <= b.open <= b.high ==> r.low <= r.open <= r.high && r.low <= r.close <= r.high
  {
    b.(high := if tk.bid > b.high then tk.bid else b.high,
       low := if tk.bid < b.low then tk.bid else b.low,
       close := tk.bid,
       spreadSum := b.spreadSum + Spread(tk),
       spreadCnt := b.spreadCnt + 1)
  }

  /** The bucket opened by a tick that reached the end of the previous one (src/main.rs:172-184). */
  function Reopen(b: Bucket, tk: Tick, intervalMs: nat): (r: Bucket)
    requires intervalMs > 0 && b.win.end == b.win.start + intervalMs
    ensures r.win.end == r.win.start + intervalMs && tk.tsMs < r.win.end
    ensures tk.tsMs >= b.win.end ==> b.win.end <= r.win.start <= tk.tsMs
    ensures r.open == tk.bid && r.high == tk.bid && r.low == tk.bid && r.close == tk.bid
    ensures r.spreadSum == Spread(tk) && r.spreadCnt == 1
  {
    Bucket(Advance(b.win, tk.tsMs, intervalMs),
           tk.bid, tk.bid, tk.bid, tk.bid, Spread(tk), 1)
  }

  /**
    One iteration of the loop of src/main.rs:154-197: the bucket flushed by
    `tk`, if any, and the bucket after `tk`.
  */
  function Step(b: Bucket, tk: Tick, intervalMs: nat): (r: (Option<Bucket>, Bucket))
    requires intervalMs > 0 && b.win.end == b.win.start + intervalMs
    ensures r.0.Some? <==> tk.tsMs >= b.win.end
    ensures r.0.Some? ==> r.0.value == b
    ensures r.1.win.end == r.1.win.start + intervalMs && tk.tsMs < r.1.win.end && r.1.close == tk.bid
  {
    if tk.tsMs >= b.win.end then (Some(b), Reopen(b, tk, intervalMs))
    else (None, Absorb(b, tk))
  }

  /**
    The buckets flushed while processing `ticks` from state `b`, followed by
    the unconditional final flush (src/main.rs:199-213).  Every tick flushes
    at most once, so there is at most one bucket more than there are ticks.
  */
  function Closed(ticks: seq<Tick>, b: Bucket, intervalMs: nat): (r: seq<Bucket>)
    requires intervalMs > 0 && b.win.end == b.win.start + intervalMs
    ensures 1 <= |r| <= |ticks| + 1
    ensures r[|r| - 1].win.end == r[|r| - 1].win.start + intervalMs
    decreases |ticks|
  {
    if |ticks| == 0 then [b]
    else
      var (flushed, next) := Step(b, ticks[0], intervalMs);
      var rest := Closed(ticks[1..], next, intervalMs);
      if flushed.Some? then [flushed.value] + rest else rest
  }

  /** Every bucket turned into its candle, in order. */
  function FlushAll(bs: seq<Bucket>): (cs: seq<Candle>)
    ensures |cs| == |bs|
  {
    if |bs| == 0 then [] else [Flush(bs[0])] + FlushAll(bs[1..])
  }

  /** The buckets flushed by `ticks_to_candles`; none for an empty input. */
  function ClosedBuckets(ticks: seq<Tick>, intervalMs: nat): (r: seq<Bucket>)
    requires intervalMs > 0
    ensures |ticks| == 0 <==> |r| == 0
    ensures |r| <= |ticks|
  {
    if |ticks| == 0 then [] else Closed(ticks, Seed(ticks[0], intervalMs), intervalMs)
  }

  /** The functional specification of `ticks_to_candles` (src/main.rs:137-216). */
  function TicksToCandles(ticks: seq<Tick>, intervalMs: nat): (r: seq<Candle>)
    requires intervalMs > 0
    ensures |r| == |ClosedBuckets(ticks, intervalMs)|
    ensures |ticks| == 0 <==> |r| == 0
    ensures |r| <= |ticks|
  {
    FlushAll(ClosedBuckets(ticks, intervalMs))
  }

  /** The `k`-th candle is the flush of the `k`-th bucket. */
  lemma {:induction false} FlushAllIndex(bs: seq<Bucket>, k: nat)
    requires k < |bs|
    ensures FlushAll(bs)[k] == Flush(bs[k])
    decreases k
  {
    if k > 0 {
      FlushAllIndex(bs[1..], k - 1);
    }
  }

  lemma {:induction false} FlushAllAppend(xs: seq<Bucket>, ys: seq<Bucket>)
    ensures FlushAll(xs + ys) == FlushAll(xs) + FlushAll(ys)
    decreases |xs|
  {
    if |xs| > 0 {
      assert (xs + ys)[1..] == xs[1..] + ys;
      FlushAllAppend(xs[1..], ys);
    } else {
      assert xs + ys == ys;
    }
  }

  /** One tick of `Closed`, seen from the candles it emits. */
  lemma {:induction false} ClosedUnfold(ticks: seq<Tick>, i: nat, b: Bucket, intervalMs: nat)
    requires intervalMs > 0 && b.win.end == b.win.start + intervalMs
    requires i < |ticks|
    ensures ticks[i].tsMs >= b.win.end ==>
      FlushAll(Closed(ticks[i..], b, intervalMs))
      == [Flush(b)] + FlushAll(Closed(ticks[i + 1..], Reopen(b, ticks[i], intervalMs), intervalMs))
    ensures ticks[i].tsMs < b.win.end ==>
      FlushAll(Closed(ticks[i..], b, intervalMs))
      == FlushAll(Closed(ticks[i + 1..], Absorb(b, ticks[i]), intervalMs))
  {
    assert ticks[i..][0] == ticks[i];
    assert ticks[i..][1..] == ticks[i + 1..];
    if ticks[i].tsMs >= b.win.end {
      FlushAllAppend([b], Closed(ticks[i + 1..], Reopen(b, ticks[i], intervalMs), intervalMs));
    }
  }

  /** The loop invariant on entry, with the first tick seeding the bucket. */
  lemma LoopStarts(ticks: seq<Tick>, intervalMs: nat)
    requires intervalMs > 0 && |ticks| > 0
    ensures [] + FlushAll(Closed(ticks[0..], Seed(ticks[0], intervalMs), intervalMs)) == TicksToCandles(ticks, intervalMs)
  {
    assert ticks[0..] == ticks;
  }

  /** After the last tick only the final flush remains. */
  lemma LoopEnds(candles: seq<Candle>, ticks: seq<Tick>, b: Bucket, intervalMs: nat)
    requires intervalMs > 0 && b.win.end == b.win.start + intervalMs
    ensures candles + FlushAll(Closed(ticks[|ticks|..], b, intervalMs)) == candles + [Flush(b)]
  {
    assert ticks[|ticks|..] == [];
  }

  /** The loop invariant across a tick that flushes the bucket. */
  lemma LoopFlushes(candles: seq<Candle>, ticks: seq<Tick>, i: nat, b: Bucket, intervalMs: nat)
    requires intervalMs > 0 && b.win.end == b.win.start + intervalMs
    requires i < |ticks| && ticks[i].tsMs >= b.win.end
    ensures candles + FlushAll(Closed(ticks[i..], b, intervalMs))
      == (candles + [Flush(b)]) + FlushAll(Closed(ticks[i + 1..], Reopen(b, ticks[i], intervalMs), intervalMs))
  {
    ClosedUnfold(ticks, i, b, intervalMs);
  }

  /** The loop invariant across a tick that stays in the bucket. */
  lemma LoopAbsorbs(candles: seq<Candle>, ticks: seq<Tick>, i: nat, b: Bucket, intervalMs: nat)
    requires intervalMs > 0 && b.win.end == b.win.start + intervalMs
    requires i < |ticks| && ticks[i].tsMs < b.win.end
    ensures candles + FlushAll(Closed(ticks[i..], b, intervalMs))
      == candles + FlushAll(Closed(ticks[i + 1..], Absorb(b, ticks[i]), intervalMs))
  {
    ClosedUnfold(ticks, i, b, intervalMs);
  }

  /**
    The loop of src/main.rs:137-216 over a sequence of ticks, verified
    against `TicksToCandles`.
  */
  method TicksToCandlesLoop(ticks: seq<Tick>, intervalMs: nat) returns (candles: seq<Candle>)
    requires intervalMs > 0
    ensures candles == TicksToCandles(ticks, intervalMs)
  {
    if |ticks| == 0 {
      return [];
    }
    candles := [];
    var bucketStart: nat := ticks[0].tsMs;
    var bucketEnd: nat := bucketStart + intervalMs;
    var curOpen := ticks[0].bid;
    var curHigh := ticks[0].bid;
    var curLow := ticks[0].bid;
    var curClose := ticks[0].bid;
    var spreadSum := 0.0;
    var spreadCnt: nat := 0;

    LoopStarts(ticks, intervalMs);
    var i := 0;
    while i < |ticks|
      invariant 0 <= i <= |ticks|
      invariant bucketEnd == bucketStart + intervalMs
      invariant candles + FlushAll(Closed(ticks[i..], Bucket(Window(bucketStart, bucketEnd),
                  curOpen, curHigh, curLow, curClose, spreadSum, spreadCnt), intervalMs))
                == TicksToCandles(ticks, intervalMs)
    {
      ghost var b := Bucket(Window(bucketStart, bucketEnd),
                            curOpen, curHigh, curLow, curClose, spreadSum, spreadCnt);
      var tk := ticks[i];
      if tk.tsMs >= bucketEnd {
        LoopFlushes(candles, ticks, i, b, intervalMs);
        var c := FlushVars(bucketStart, bucketEnd, curOpen, curHigh, curLow, curClose, spreadSum, spreadCnt);
        candles := candles + [c];
        bucketStart, bucketEnd, curOpen, curHigh, curLow, curClose, spreadSum, spreadCnt
          := ReopenVars(b, bucketStart, bucketEnd, tk, intervalMs);
      } else {
        LoopAbsorbs(candles, ticks, i, b, intervalMs);
        curHigh, curLow, curClose, spreadSum, spreadCnt
          := AbsorbVars(bucketStart, bucketEnd, curOpen, curHigh, curLow, curClose, spreadSum, spreadCnt, tk);
      }
      i := i + 1;
    }
    LoopEnds(candles, ticks, Bucket(Window(bucketStart, bucketEnd),
      curOpen, curHigh, curLow, curClose, spreadSum, spreadCnt), intervalMs);
    var c := FlushVars(bucketStart, bucketEnd, curOpen, curHigh, curLow, curClose, spreadSum, spreadCnt);
    candles := candles + [c];
  }

  /** The flush of src/main.rs:157-170 and 199-213 on the loop's variables builds the candle `Flush` describes. */
  method FlushVars(bucketStart: nat, bucketEnd: nat, curOpen: real, curHigh: real, curLow: real,
                   curClose: real, spreadSum: real, spreadCnt: nat) returns (c: Candle)
    ensures c == Flush(Bucket(Window(bucketStart, bucketEnd), curOpen, curHigh, curLow, curClose, spreadSum, spreadCnt))
  {
    var midSpread := if spreadCnt > 0 then spreadSum / (spreadCnt as real) else 0.0;
    c := Candle(bucketStart, bucketEnd, curOpen, curHigh, curLow, curClose, midSpread);
  }

  /**
    The new-bucket branch of src/main.rs:172-184 on the loop's variables:
    advance the window past the tick and reset the state to it.  It builds
    the bucket `Reopen` describes.
  */
  method ReopenVars(ghost b: Bucket, bucketStart: nat, bucketEnd: nat, tk: Tick, intervalMs: nat)
    returns (start: nat, end: nat, curOpen: real, curHigh: real, curLow: real, curClose: real,
             spreadSum: real, spreadCnt: nat)
    requires intervalMs > 0 && bucketEnd == bucketStart + intervalMs && b.win == Window(bucketStart, bucketEnd)
    ensures end == start + intervalMs
    ensures Bucket(Window(start, end), curOpen, curHigh, curLow, curClose, spreadSum, spreadCnt) == Reopen(b, tk, intervalMs)
  {
    start, end := AdvanceLoop(bucketStart, bucketEnd, tk.tsMs, intervalMs);
    curOpen := tk.bid;
    curHigh := tk.bid;
    curLow := tk.bid;
    curClose := tk.bid;
    spreadSum := Abs(tk.ask - tk.bid);
    spreadCnt := 1;
  }

  /** The same-bucket branch of src/main.rs:185-196 on the loop's variables builds the bucket `Absorb` describes. */
  method AbsorbVars(bucketStart: nat, bucketEnd: nat, curOpen: real, curHigh: real, curLow: real,
                    curClose: real, spreadSum: real, spreadCnt: nat, tk: Tick)
    returns (high: real, low: real, close: real, sum: real, cnt: nat)
    ensures Bucket(Window(bucketStart, bucketEnd), curOpen, high, low, close, sum, cnt)
         == Absorb(Bucket(Window(bucketStart, bucketEnd), curOpen, curHigh, curLow, curClose, spreadSum, spreadCnt), tk)
  {
    high, low := curHigh, curLow;
    if tk.bid > high {
      high := tk.bid;
    }
    if tk.bid < low {
      low := tk.bid;
    }
    close := tk.bid;
    sum := spreadSum + Abs(tk.ask - tk.bid);
    cnt := spreadCnt + 1;
  }
}

=== FILE: market.dfy ===
/**
  The market data records of the model generator: a bid/ask tick and the
  OHLC candle built from a window of ticks.

  Timestamps are unbounded naturals (the source's `u64` is not wrapped) and
  prices are reals: the aggregation only copies, compares, subtracts, takes
  the absolute value of and averages them.  Rounding, NaN and the
  infinities of the source's `f64` are not modelled, so the properties
  proved here hold for finite prices.
*/
module Market {

  /** One bid/ask quote at `tsMs` milliseconds. */
  datatype Tick = Tick(tsMs: nat, bid: real, ask: real)

  /** A candle over the half-open window `[startTs, endTs)`. */
  datatype Candle = Candle(
    startTs: nat,
    endTs: nat,
    open: real,
    high: real,
    low: real,
    close: real,
    midSpread: real)

  function Abs(x: real): (r: real)
    ensures r >= 0.0
    ensures r == x || r == -x
  {
    if x < 0.0 then -x else x
  }

  /** The quoted spread of a tick, `|ask - bid|`. */
  function Spread(t: Tick): (r: real)
    ensures r >= 0.0
    ensures r == t.ask - t.bid || r == t.bid - t.ask
  {
    Abs(t.ask - t.bid)
  }

  /** True when the ticks' timestamps never decrease. */
  ghost predicate Sorted(ticks: seq<Tick>) {
    forall i, j :: 0 <= i < j < |ticks| ==> ticks[i].tsMs <= ticks[j].tsMs
  }

  /** The highest bid of a non-empty run of ticks. */
  function MaxBid(ticks: seq<Tick>): (r: real)
    requires |ticks| > 0
    ensures forall i :: 0 <= i < |ticks| ==> ticks[i].bid <= r
    ensures exists i :: 0 <= i < |ticks| && ticks[i].bid == r
  {
    if |ticks| == 1 then ticks[0].bid
    else
      var m := MaxBid(ticks[..|ticks| - 1]);
      var last := ticks[|ticks| - 1].bid;
      if last > m then last else m
  }

  /** The lowest bid of a non-empty run of ticks. */
  function MinBid(ticks: seq<Tick>): (r: real)
    requires |ticks| > 0
    ensures forall i :: 0 <= i < |ticks| ==> r <= ticks[i].bid
    ensures exists i :: 0 <= i < |ticks| && ticks[i].bid == r
  {
    if |ticks| == 1 then ticks[0].bid
    else
      var m := MinBid(ticks[..|ticks| - 1]);
      var last := ticks[|ticks| - 1].bid;
      if last < m then last else m
  }

  /** The arithmetic mean of `n > 0` values that add up to `total`. */
  function Mean(total: real, n: nat): (r: real)
    requires n > 0
    ensures total >= 0.0 ==> r >= 0.0
  {
    total / (n as real)
  }

  /** The sum of the spreads of a run of ticks, accumulated left to right. */
  function SpreadTotal(ticks: seq<Tick>): (r: real)
    ensures r >= 0.0
  {
    if |ticks| == 0 then 0.0
    else SpreadTotal(ticks[..|ticks| - 1]) + Spread(ticks[|ticks| - 1])
  }
}

=== FILE: pipeline.dfy ===
/**
  The sweep mode of the model generator end to end: load the ticks, build
  one-minute candles, build the grid, run the sweep and keep the best five.
  The summary it reports holds the number of candidates generated and the
  number kept.

  Writing the two candidate files and printing the summary are left out;
  the candidates that would be written are part of the result.
*/
module Pipeline {
  import opened Wrappers
  import opened Market
  import Candles
  import TickLoader
  import opened Sweep
  import Ranking

  /** Candles are one minute wide. */
  const CandleIntervalMs: nat := 60000

  /** The number of candidates written to the top list. */
  const TopCount: nat := 5

  /** The summary line: how many candidates were generated and how many were kept. */
  datatype Summary = Summary(generated: nat, topKept: nat)

  /** Everything the sweep mode produces: all candidates, the best ones and the summary. */
  datatype SweepOutput = SweepOutput(all: seq<Candidate>, top: seq<Candidate>, summary: Summary)

  /**
    The sweep mode.  A failed line read aborts before the grid is looked
    at; a failed grid file aborts before any candidate is built.
  */
  function RunSweep<E>(lines: seq<Result<string, E>>, parsers: TickLoader.Parsers,
                       gridFile: Option<Result<Grid, E>>, symbol: string,
                       strategy: (seq<Candle>, Params) -> Metrics, clock: nat -> nat): (r: Result<SweepOutput, E>)
    ensures r.Ok? <==> (forall i :: 0 <= i < |lines| ==> lines[i].Ok?) && !(gridFile.Some? && gridFile.value.Err?)
    ensures r.Ok? ==>
      && r.value.summary.generated == |r.value.all|
      && r.value.summary.topKept == |r.value.top|
      && r.value.summary.topKept == (if |r.value.all| < TopCount then |r.value.all| else TopCount)
    ensures r.Ok? ==>
      && |r.value.all| == Size(BuildParamGrid(gridFile).value)
      && Ranking.Descending(r.value.top) && multiset(r.value.top) <= multiset(r.value.all)
  {
    match TickLoader.LoadTicks(lines, parsers)
    case Err(e) => Err(e)
    case Ok(ticks) =>
      var candles := Candles.TicksToCandles(ticks, CandleIntervalMs);
      match BuildParamGrid(gridFile)
      case Err(e) => Err(e)
      case Ok(g) =>
        var all := Candidates(symbol, candles, g, strategy, clock);
        var top := Ranking.TopK(all, TopCount);
        Ranking.TopKOrdered(all, TopCount);
        Ok(SweepOutput(all, top, Summary(|all|, |top|)))
  }

  /**
    Without a grid file and with every line read, the sweep generates 18
    candidates, keeps 5, and the kept ones are in descending order, drawn
    from the 18 and score at least as high as every candidate left out.
  */
  lemma DefaultSweep<E>(lines: seq<Result<string, E>>, parsers: TickLoader.Parsers, symbol: string,
                        strategy: (seq<Candle>, Params) -> Metrics, clock: nat -> nat)
    requires forall i :: 0 <= i < |lines| ==> lines[i].Ok?
    ensures var r := RunSweep(lines, parsers, None, symbol, strategy, clock);
      r.Ok? && r.value.summary == Summary(18, 5) && |r.value.all| == Size(DefaultGrid)
      && Ranking.Descending(r.value.top) && multiset(r.value.top) <= multiset(r.value.all)
      && forall x, y :: x in r.value.top && y in multiset(r.value.all) - multiset(r.value.top)
           ==> Ranking.Score(x) >= Ranking.Score(y)
  {
    var r := RunSweep(lines, parsers, None, symbol, strategy, clock);
    DefaultGridSize();
    Ranking.TopKOrdered(r.value.all, TopCount);
    Ranking.TopKKeepsBest(r.value.all, TopCount);
  }
}

=== FILE: ranking.dfy ===
/**
  Ranking of the sweep's candidates: the score `pf_bt - 10 * dd_bt`, the
  sort by descending score and the cut to the best `k`.

  The source sorts a copy of the candidates with `sort_by`, which is a
  stable sort, so candidates of equal score stay in sweep order.  The model
  sorts by inserting the candidates one at a time, in input order, behind
  every candidate already placed whose score is at least theirs; the
  lemmas below show the result is ordered, a permutation and stable, which
  is what determines a stable sort's output.  Since the model works on
  values, the caller's candidate list is never changed.
*/
module Ranking {
  import opened Sweep

  /** `score_candidate`: reward the profit factor, punish the drawdown. */
  function Score(c: Candidate): (s: real)
    ensures s == c.metrics.pfBt - 10.0 * c.metrics.ddBt
  {
    c.metrics.pfBt - c.metrics.ddBt * 10.0
  }

  /**
    A higher profit factor never lowers the score and a deeper drawdown
    never raises it; each strictly better metric gives a strictly higher
    score, one drawdown unit weighing as much as ten profit-factor units.
  */
  lemma ScoreOrder(a: Candidate, b: Candidate)
    requires a.metrics.pfBt >= b.metrics.pfBt && a.metrics.ddBt <= b.metrics.ddBt
    ensures Score(a) >= Score(b)
    ensures a.metrics.pfBt > b.metrics.pfBt || a.metrics.ddBt < b.metrics.ddBt ==> Score(a) > Score(b)
    ensures Score(a) - Score(b) == (a.metrics.pfBt - b.metrics.pfBt) + 10.0 * (b.metrics.ddBt - a.metrics.ddBt)
  {
  }

  /** Scores never increase along `cs`. */
  ghost predicate Descending(cs: seq<Candidate>) {
    forall a, b :: 0 <= a < b < |cs| ==> Score(cs[a]) >= Score(cs[b])
  }

  /** The candidates of score `v`, in their order in `cs`. */
  function WithScore(cs: seq<Candidate>, v: real): (r: seq<Candidate>)
    ensures |r| <= |cs|
  {
    if |cs| == 0 then []
    else (if Score(cs[0]) == v then [cs[0]] else []) + WithScore(cs[1..], v)
  }

  /** `x` goes behind every candidate of `sorted` whose score is at least its own. */
  function Insert(x: Candidate, sorted: seq<Candidate>): (r: seq<Candidate>)
    ensures |r| == |sorted| + 1
    ensures multiset(r) == multiset(sorted) + multiset{x}
  {
    if |sorted| == 0 then [x]
    else if Score(sorted[0]) >= Score(x) then
      assert sorted == [sorted[0]] + sorted[1..];
      [sorted[0]] + Insert(x, sorted[1..])
    else [x] + sorted
  }

  /** The candidates sorted by descending score, equal scores in input order. */
  function SortByScore(cs: seq<Candidate>): (r: seq<Candidate>)
    ensures |r| == |cs|
    ensures multiset(r) == multiset(cs)
  {
    if |cs| == 0 then [] else LastSplit(cs); Insert(cs[|cs| - 1], SortByScore(cs[..|cs| - 1]))
  }

  /** The best `k` candidates: the first `min(k, n)` of the sorted copy. */
  function TopK(cs: seq<Candidate>, k: nat): (r: seq<Candidate>)
    ensures |r| == if k < |cs| then k else |cs|
  {
    var sorted := SortByScore(cs);
    sorted[..if k < |cs| then k else |cs|]
  }

  /** The candidates of score `v` in a sequence with a known first element. */
  lemma WithScoreCons(x: Candidate, rest: seq<Candidate>, v: real)
    ensures WithScore([x] + rest, v) == (if Score(x) == v then [x] else []) + WithScore(rest, v)
  {
    assert ([x] + rest)[1..] == rest;
  }

  lemma {:induction false} WithScoreAppend(a: seq<Candidate>, b: seq<Candidate>, v: real)
    ensures WithScore(a + b, v) == WithScore(a, v) + WithScore(b, v)
    decreases |a|
  {
    if |a| == 0 {
      assert a + b == b;
    } else {
      HeadSplit(a);
      assert a + b == [a[0]] + (a[1..] + b);
      WithScoreCons(a[0], a[1..] + b, v);
      WithScoreCons(a[0], a[1..], v);
      WithScoreAppend(a[1..], b, v);
    }
  }

  /** No candidate scores `v` when all score below it. */
  lemma {:induction false} WithScoreNone(cs: seq<Candidate>, v: real)
    requires forall i :: 0 <= i < |cs| ==> Score(cs[i]) < v
    ensures WithScore(cs, v) == []
    decreases |cs|
  {
    if |cs| > 0 {
      WithScoreNone(cs[1..], v);
    }
  }

  lemma LastSplit<T>(s: seq<T>)
    requires |s| > 0
    ensures s == s[..|s| - 1] + [s[|s| - 1]]
  {
  }

  lemma HeadSplit<T>(s: seq<T>)
    requires |s| > 0
    ensures s == [s[0]] + s[1..]
  {
  }

  lemma DescendingTail(s: seq<Candidate>)
    requires |s| > 0 && Descending(s)
    ensures Descending(s[1..])
  {
    forall a, b | 0 <= a < b < |s| - 1 ensures Score(s[1..][a]) >= Score(s[1..][b]) {
      assert s[1..][a] == s[a + 1] && s[1..][b] == s[b + 1];
    }
  }

  /** A candidate scoring at least everything in a descending sequence can go in front of it. */
  lemma ConsDescending(h: Candidate, s: seq<Candidate>)
    requires Descending(s)
    requires forall y :: y in s ==> Score(h) >= Score(y)
    ensures Descending([h] + s)
  {
    var r := [h] + s;
    forall a, b | 0 <= a < b < |r| ensures Score(r[a]) >= Score(r[b]) {
      assert r[b] == s[b - 1];
      if a > 0 {
        assert r[a] == s[a - 1];
      }
    }
  }

  lemma {:induction false} InsertDescending(x: Candidate, sorted: seq<Candidate>)
    requires Descending(sorted)
    ensures Descending(Insert(x, sorted))
    decreases |sorted|
  {
    if |sorted| > 0 {
      var h := sorted[0];
      if Score(h) >= Score(x) {
        var rest := sorted[1..];
        DescendingTail(sorted);
        InsertDescending(x, rest);
        InsertMultiset(x, rest);
        forall y | y in Insert(x, rest) ensures Score(h) >= Score(y) {
          assert y in multiset(Insert(x, rest));
          if y != x {
            var m :| 0 <= m < |rest| && rest[m] == y;
            assert sorted[m + 1] == y;
          }
        }
        ConsDescending(h, Insert(x, rest));
      } else {
        forall y | y in sorted ensures Score(x) >= Score(y) {
          var m :| 0 <= m < |sorted| && sorted[m] == y;
          assert Score(h) >= Score(sorted[m]);
        }
        ConsDescending(x, sorted);
      }
    } else {
      ConsDescending(x, []);
    }
  }

  lemma {:induction false} InsertMultiset(x: Candidate, sorted: seq<Candidate>)
    ensures multiset(Insert(x, sorted)) == multiset(sorted) + multiset{x}
    decreases |sorted|
  {
    if |sorted| > 0 && Score(sorted[0]) >= Score(x) {
      InsertMultiset(x, sorted[1..]);
      assert sorted == [sorted[0]] + sorted[1..];
    }
  }

  /** Inserting `x` adds it behind the candidates of equal score and changes no other score's order. */
  lemma {:induction false} InsertStable(x: Candidate, sorted: seq<Candidate>, v: real)
    requires Descending(sorted)
    ensures WithScore(Insert(x, sorted), v) == WithScore(sorted, v) + (if Score(x) == v then [x] else [])
    decreases |sorted|
  {
    if |sorted| == 0 {
    } else if Score(sorted[0]) >= Score(x) {
      var h, rest := sorted[0], sorted[1..];
      DescendingTail(sorted);
      InsertStable(x, rest, v);
      assert Insert(x, sorted) == [h] + Insert(x, rest);
      WithScoreCons(h, Insert(x, rest), v);
      HeadSplit(sorted);
      WithScoreCons(h, rest, v);
      var hs, xs := (if Score(h) == v then [h] else []), (if Score(x) == v then [x] else []);
      AppendAssoc(hs, WithScore(rest, v), xs);
    } else {
      BelowFirst(x, sorted);
      WithScoreCons(x, sorted, v);
      if Score(x) == v {
        WithScoreNone(sorted, v);
      }
    }
  }

  /** Everything in a descending sequence scores below a candidate that beats its first element. */
  lemma BelowFirst(x: Candidate, sorted: seq<Candidate>)
    requires Descending(sorted) && |sorted| > 0 && Score(sorted[0]) < Score(x)
    ensures forall i :: 0 <= i < |sorted| ==> Score(sorted[i]) < Score(x)
  {
    forall i | 0 <= i < |sorted| ensures Score(sorted[i]) < Score(x) {
      if i > 0 {
        assert Score(sorted[0]) >= Score(sorted[i]);
      }
    }
  }

  /** The sort orders by descending score and only rearranges its input. */
  lemma {:induction false} SortOrdersAndPermutes(cs: seq<Candidate>)
    ensures Descending(SortByScore(cs))
    ensures multiset(SortByScore(cs)) == multiset(cs)
    decreases |cs|
  {
    if |cs| > 0 {
      var init, last := cs[..|cs| - 1], cs[|cs| - 1];
      SortOrdersAndPermutes(init);
      InsertDescending(last, SortByScore(init));
      InsertMultiset(last, SortByScore(init));
      LastSplit(cs);
    }
  }

  /** The sort is stable: the candidates of any one score keep their input order. */
  lemma {:induction false} SortStable(cs: seq<Candidate>, v: real)
    ensures WithScore(SortByScore(cs), v) == WithScore(cs, v)
    decreases |cs|
  {
    if |cs| > 0 {
      var init, last := cs[..|cs| - 1], cs[|cs| - 1];
      SortStable(init, v);
      SortOrdersAndPermutes(init);
      InsertStable(last, SortByScore(init), v);
      LastSplit(cs);
      WithScoreAppend(init, [last], v);
      assert WithScore([last], v) == (if Score(last) == v then [last] else []);
    }
  }

  /** The sorted copy is the kept candidates followed by the dropped ones. */
  lemma TopKSplit(cs: seq<Candidate>, k: nat)
    ensures var m := if k < |cs| then k else |cs|;
      SortByScore(cs) == TopK(cs, k) + SortByScore(cs)[m..]
  {
    var m := if k < |cs| then k else |cs|;
    CutAt(SortByScore(cs), m);
  }

  lemma AppendAssoc<T>(a: seq<T>, b: seq<T>, c: seq<T>)
    ensures a + (b + c) == (a + b) + c
  {
  }

  lemma CutAt<T>(s: seq<T>, m: nat)
    requires m <= |s|
    ensures s == s[..m] + s[m..]
  {
  }

  /** The top `k` is ordered by descending score and drawn from the input. */
  lemma TopKOrdered(cs: seq<Candidate>, k: nat)
    ensures Descending(TopK(cs, k))
    ensures multiset(TopK(cs, k)) <= multiset(cs)
  {
    var m := if k < |cs| then k else |cs|;
    var sorted := SortByScore(cs);
    SortOrdersAndPermutes(cs);
    TopKSplit(cs, k);
    assert multiset(sorted) == multiset(TopK(cs, k)) + multiset(sorted[m..]);
    forall a, b | 0 <= a < b < |TopK(cs, k)|
      ensures Score(TopK(cs, k)[a]) >= Score(TopK(cs, k)[b])
    {
      assert TopK(cs, k)[a] == sorted[a] && TopK(cs, k)[b] == sorted[b];
    }
  }

  /** No dropped candidate scores above a kept one. */
  lemma TopKKeepsBest(cs: seq<Candidate>, k: nat)
    ensures var r := TopK(cs, k);
      forall x, y :: x in r && y in multiset(cs) - multiset(r) ==> Score(x) >= Score(y)
  {
    var m := if k < |cs| then k else |cs|;
    SortOrdersAndPermutes(cs);
    MultisetCut(SortByScore(cs), m, cs);
    DescendingCut(SortByScore(cs), m);
  }

  /** What is left of `whole` after taking out a prefix of a permutation of it is the rest of that permutation. */
  lemma MultisetCut<T>(s: seq<T>, m: nat, whole: seq<T>)
    requires m <= |s| && multiset(s) == multiset(whole)
    ensures multiset(whole) - multiset(s[..m]) == multiset(s[m..])
  {
    CutAt(s, m);
    assert multiset(s) == multiset(s[..m]) + multiset(s[m..]);
  }

  /** In a descending sequence, everything before a cut scores at least everything after it. */
  lemma DescendingCut(s: seq<Candidate>, m: nat)
    requires m <= |s| && Descending(s)
    ensures forall x, y :: x in s[..m] && y in multiset(s[m..]) ==> Score(x) >= Score(y)
  {
    forall x, y | x in s[..m] && y in multiset(s[m..])
      ensures Score(x) >= Score(y)
    {
      var a :| 0 <= a < m && s[..m][a] == x;
      var b :| 0 <= b < |s| - m && s[m..][b] == y;
      assert s[a] == x && s[m + b] == y;
    }
  }

  /** For every score, the kept candidates of that score are the first ones of it in input order. */
  lemma TopKTiesInOrder(cs: seq<Candidate>, k: nat, v: real)
    ensures WithScore(TopK(cs, k), v) <= WithScore(cs, v)
  {
    var m := if k < |cs| then k else |cs|;
    SortStable(cs, v);
    TopKSplit(cs, k);
    WithScoreAppend(TopK(cs, k), SortByScore(cs)[m..], v);
  }

  /** A candidate of score `v` sits in `WithScore(cs, v)` right after the ones of that score before it. */
  lemma WithScoreAt(cs: seq<Candidate>, i: nat, v: real)
    requires i < |cs| && Score(cs[i]) == v
    ensures var p := |WithScore(cs[..i], v)|;
      p < |WithScore(cs, v)| && WithScore(cs, v)[p] == cs[i]
  {
    CutAt(cs, i);
    HeadSplit(cs[i..]);
    WithScoreAppend(cs[..i], cs[i..], v);
    WithScoreAppend([cs[i]], cs[i..][1..], v);
  }

  /** A prefix that takes in one more candidate of score `v` has one more of them. */
  lemma WithScoreGrows(cs: seq<Candidate>, i: nat, j: nat, v: real)
    requires i < j <= |cs| && Score(cs[i]) == v
    ensures |WithScore(cs[..i], v)| < |WithScore(cs[..j], v)|
  {
    var mid := cs[i..j];
    assert cs[..j] == cs[..i] + mid;
    WithScoreAppend(cs[..i], mid, v);
    WithScoreAt(mid, 0, v);
  }

  /** Equal scores come out in sweep order: two candidates of one score keep their relative order. */
  lemma TiesKeepOrder(cs: seq<Candidate>, i: nat, j: nat)
    requires i < j < |cs| && Score(cs[i]) == Score(cs[j])
    ensures var v := Score(cs[i]);
      exists p, q :: 0 <= p < q < |WithScore(SortByScore(cs), v)|
        && WithScore(SortByScore(cs), v)[p] == cs[i] && WithScore(SortByScore(cs), v)[q] == cs[j]
  {
    var v := Score(cs[i]);
    SortStable(cs, v);
    WithScoreAt(cs, i, v);
    WithScoreAt(cs, j, v);
    WithScoreGrows(cs, i, j, v);
    var p, q := |WithScore(cs[..i], v)|, |WithScore(cs[..j], v)|;
    assert WithScore(SortByScore(cs), v)[p] == cs[i];
  }
}

=== FILE: sweep.dfy ===
/**
  The parameter sweep: the grid of strategy parameters (built in or read
  from a grid file), the four nested loops that enumerate it, and the
  candidate record built for every combination.

  The strategy run and the clock are parameters: `strategy` stands for the
  backtest that turns the candles and one parameter set into metrics, and
  `clock(n)` is the millisecond stamp read while the `n`-th candidate is
  built.  The model id is kept as its components; the text formatting of
  the id is not modelled.
*/
module Sweep {
  import opened Wrappers
  import opened Market

  /** One parameter combination. */
  datatype Params = Params(donchN: nat, rrMin: real, maxSpread: real, sessionFilter: string)

  /** The backtest metrics of one combination. */
  datatype Metrics = Metrics(pfBt: real, ddBt: real, trades: nat, winrate: real, pnl: real)

  /** The parts the model id is formatted from: symbol, Donchian length, RR minimum, session and stamp. */
  datatype ModelId = ModelId(symbol: string, donchN: nat, rrMin: real, sessionFilter: string, stamp: nat)

  datatype Candidate = Candidate(modelId: ModelId, symbol: string, params: Params, metrics: Metrics)

  /** The four dimensions of the sweep, in the order of the grid file's fields. */
  datatype Grid = Grid(donchN: seq<nat>, rrMin: seq<real>, sessionFilter: seq<string>, maxSpread: seq<real>)

  /** The built-in grid used when no grid file is given. */
  const DefaultGrid: Grid := Grid([20, 30, 40], [1.8, 2.0, 2.5], ["london", "nyopen"], [2.5])

  /** The number of combinations of a grid. */
  function Size(g: Grid): nat {
    |g.donchN| * (|g.rrMin| * (|g.sessionFilter| * |g.maxSpread|))
  }

  /**
    `build_param_grid`: the grid file, when one is given, replaces the
    built-in grid as a whole; reading or decoding it can fail.
  */
  function BuildParamGrid<E>(gridFile: Option<Result<Grid, E>>): (r: Result<Grid, E>)
    ensures gridFile.None? ==> r == Ok(DefaultGrid)
    ensures gridFile.Some? ==> r == gridFile.value
  {
    match gridFile
    case None => Ok(DefaultGrid)
    case Some(loaded) => loaded
  }

  /**
    `build_candidate`: the candidate of one combination.  Its parameters
    are copied unchanged and its id names the symbol, Donchian length, RR
    minimum and session; the spread cap is not part of the id.
  */
  function BuildCandidate(symbol: string, p: Params, metrics: Metrics, stamp: nat): (c: Candidate)
    ensures Named(c) && c.symbol == symbol && c.params == p && c.metrics == metrics
  {
    Candidate(ModelId(symbol, p.donchN, p.rrMin, p.sessionFilter, stamp), symbol, p, metrics)
  }

  /** The id of a candidate names its symbol, Donchian length, RR minimum and session. */
  predicate Named(c: Candidate) {
    c.modelId.symbol == c.symbol && c.modelId.donchN == c.params.donchN
    && c.modelId.rrMin == c.params.rrMin && c.modelId.sessionFilter == c.params.sessionFilter
  }

  lemma MulAddOne(x: nat, m: nat)
    ensures x * m + m == (x + 1) * m
  {
  }

  lemma MulBelow(i: nat, n: nat, j: nat, m: nat)
    requires i < n && j < m
    ensures i * m + j < n * m
  {
    MulAddOne(i, m);
    assert (i + 1) * m <= n * m;
  }

  lemma MulAssoc(a: nat, b: nat, c: nat)
    ensures a * (b * c) == a * b * c
  {
  }

  /** The innermost loop: one combination per spread cap. */
  function SpreadRow(d: nat, rr: real, sess: string, spreads: seq<real>): (r: seq<Params>)
    ensures |r| == |spreads|
  {
    if |spreads| == 0 then []
    else [Params(d, rr, spreads[0], sess)] + SpreadRow(d, rr, sess, spreads[1..])
  }

  /** The session loop: one spread row per session. */
  function SessionBlock(d: nat, rr: real, sessions: seq<string>, spreads: seq<real>): (r: seq<Params>)
    ensures |r| == |sessions| * |spreads|
  {
    if |sessions| == 0 then []
    else
      MulAddOne(|sessions| - 1, |spreads|);
      SpreadRow(d, rr, sessions[0], spreads) + SessionBlock(d, rr, sessions[1..], spreads)
  }

  /** The RR loop: one session block per RR minimum. */
  function RrBlock(d: nat, rrs: seq<real>, sessions: seq<string>, spreads: seq<real>): (r: seq<Params>)
    ensures |r| == |rrs| * (|sessions| * |spreads|)
  {
    if |rrs| == 0 then []
    else
      MulAddOne(|rrs| - 1, |sessions| * |spreads|);
      SessionBlock(d, rrs[0], sessions, spreads) + RrBlock(d, rrs[1..], sessions, spreads)
  }

  /** The outer Donchian loop: one RR block per Donchian length. */
  function DonchBlock(ds: seq<nat>, rrs: seq<real>, sessions: seq<string>, spreads: seq<real>): (r: seq<Params>)
    ensures |r| == |ds| * (|rrs| * (|sessions| * |spreads|))
  {
    if |ds| == 0 then []
    else
      MulAddOne(|ds| - 1, |rrs| * (|sessions| * |spreads|));
      RrBlock(ds[0], rrs, sessions, spreads) + DonchBlock(ds[1..], rrs, sessions, spreads)
  }

  /** Every combination, in the order the sweep visits them. */
  function Combos(g: Grid): (r: seq<Params>)
    ensures |r| == Size(g)
  {
    DonchBlock(g.donchN, g.rrMin, g.sessionFilter, g.maxSpread)
  }

  lemma {:induction false} SpreadRowAt(d: nat, rr: real, sess: string, spreads: seq<real>, l: nat)
    requires l < |spreads|
    ensures SpreadRow(d, rr, sess, spreads)[l] == Params(d, rr, spreads[l], sess)
    decreases l
  {
    if l > 0 {
      SpreadRowAt(d, rr, sess, spreads[1..], l - 1);
    }
  }

  /** Position `x`, spread cap `l` of session `k`, of a session block. */
  lemma {:induction false} SessionBlockAt(d: nat, rr: real, sessions: seq<string>, spreads: seq<real>, k: nat, l: nat, x: nat)
    requires k < |sessions| && l < |spreads| && x == k * |spreads| + l
    ensures x < |SessionBlock(d, rr, sessions, spreads)|
    ensures SessionBlock(d, rr, sessions, spreads)[x] == SpreadRow(d, rr, sessions[k], spreads)[l]
    decreases k
  {
    MulBelow(k, |sessions|, l, |spreads|);
    if k > 0 {
      MulAddOne(k - 1, |spreads|);
      SessionBlockAt(d, rr, sessions[1..], spreads, k - 1, l, x - |spreads|);
    }
  }

  /** Position `y`, place `x` of RR minimum `j`, of an RR block. */
  lemma {:induction false} RrBlockAt(d: nat, rrs: seq<real>, sessions: seq<string>, spreads: seq<real>, j: nat, x: nat, y: nat)
    requires j < |rrs| && x < |sessions| * |spreads| && y == j * (|sessions| * |spreads|) + x
    ensures y < |RrBlock(d, rrs, sessions, spreads)|
    ensures RrBlock(d, rrs, sessions, spreads)[y] == SessionBlock(d, rrs[j], sessions, spreads)[x]
    decreases j
  {
    var m := |sessions| * |spreads|;
    MulBelow(j, |rrs|, x, m);
    if j > 0 {
      MulAddOne(j - 1, m);
      RrBlockAt(d, rrs[1..], sessions, spreads, j - 1, x, y - m);
    }
  }

  /** Position `n`, place `y` of Donchian length `i`, of the whole sweep. */
  lemma {:induction false} DonchBlockAt(ds: seq<nat>, rrs: seq<real>, sessions: seq<string>, spreads: seq<real>, i: nat, y: nat, n: nat)
    requires i < |ds| && y < |rrs| * (|sessions| * |spreads|) && n == i * (|rrs| * (|sessions| * |spreads|)) + y
    ensures n < |DonchBlock(ds, rrs, sessions, spreads)|
    ensures DonchBlock(ds, rrs, sessions, spreads)[n] == RrBlock(ds[i], rrs, sessions, spreads)[y]
    decreases i
  {
    var m := |rrs| * (|sessions| * |spreads|);
    MulBelow(i, |ds|, y, m);
    if i > 0 {
      MulAddOne(i - 1, m);
      DonchBlockAt(ds[1..], rrs, sessions, spreads, i - 1, y, n - m);
    }
  }

  /** The position of combination `(i, j, k, l)` in the sweep. */
  function Flat(g: Grid, i: nat, j: nat, k: nat, l: nat): nat {
    ((i * |g.rrMin| + j) * |g.sessionFilter| + k) * |g.maxSpread| + l
  }

  /**
    Following the four loop levels down to combination `(i, j, k, l)`:
    `x` is its position in its session block, `y` in its RR block and `n`
    in the whole sweep.
  */
  lemma NestedAt(g: Grid, i: nat, j: nat, k: nat, l: nat, x: nat, y: nat, n: nat)
    requires i < |g.donchN| && j < |g.rrMin| && k < |g.sessionFilter| && l < |g.maxSpread|
    requires x == k * |g.maxSpread| + l
    requires y == j * (|g.sessionFilter| * |g.maxSpread|) + x
    requires n == i * (|g.rrMin| * (|g.sessionFilter| * |g.maxSpread|)) + y
    ensures n < |Combos(g)| && Combos(g)[n] == Params(g.donchN[i], g.rrMin[j], g.maxSpread[l], g.sessionFilter[k])
  {
    var ds, rrs, sessions, spreads := g.donchN, g.rrMin, g.sessionFilter, g.maxSpread;
    SpreadRowAt(ds[i], rrs[j], sessions[k], spreads, l);
    SessionBlockAt(ds[i], rrs[j], sessions, spreads, k, l, x);
    RrBlockAt(ds[i], rrs, sessions, spreads, j, x, y);
    DonchBlockAt(ds, rrs, sessions, spreads, i, y, n);
  }

  /**
    The sweep visits the combinations in loop order: position
    `((i * |rr| + j) * |sessions| + k) * |spreads| + l` holds exactly
    `(donch[i], rr[j], sessions[k], spreads[l])`.
  */
  lemma ComboAt(g: Grid, i: nat, j: nat, k: nat, l: nat)
    requires i < |g.donchN| && j < |g.rrMin| && k < |g.sessionFilter| && l < |g.maxSpread|
    ensures Flat(g, i, j, k, l) < |Combos(g)|
    ensures Combos(g)[Flat(g, i, j, k, l)] == Params(g.donchN[i], g.rrMin[j], g.maxSpread[l], g.sessionFilter[k])
  {
    var R, S, P := |g.rrMin|, |g.sessionFilter|, |g.maxSpread|;
    FlatLayout(i, j, k, l, R, S, P);
    var x: nat := k * P + l;
    var y: nat := j * (S * P) + x;
    NestedAt(g, i, j, k, l, x, y, Flat(g, i, j, k, l));
  }

  lemma FlatLayout(i: nat, j: nat, k: nat, l: nat, R: nat, S: nat, P: nat)
    ensures ((i * R + j) * S + k) * P + l == i * (R * (S * P)) + (j * (S * P) + (k * P + l))
  {
    calc {
      ((i * R + j) * S + k) * P + l;
      (i * R + j) * S * P + k * P + l;
      { MulAssoc(i * R + j, S, P); }
      (i * R + j) * (S * P) + k * P + l;
      i * R * (S * P) + j * (S * P) + k * P + l;
      { MulAssoc(i, R, S * P); }
      i * (R * (S * P)) + (j * (S * P) + (k * P + l));
    }
  }

  lemma FlatNext(g: Grid, i: nat, j: nat, k: nat, l: nat)
    ensures Flat(g, i, j, k, l + 1) == Flat(g, i, j, k, l) + 1
  {
  }

  /** Running off the end of one loop is the next step of the loop around it. */
  lemma FlatCarry(g: Grid, i: nat, j: nat, k: nat)
    ensures Flat(g, i, j, k, |g.maxSpread|) == Flat(g, i, j, k + 1, 0)
    ensures Flat(g, i, j, |g.sessionFilter|, 0) == Flat(g, i, j + 1, 0, 0)
    ensures Flat(g, i, |g.rrMin|, 0, 0) == Flat(g, i + 1, 0, 0, 0)
    ensures Flat(g, |g.donchN|, 0, 0, 0) == Size(g)
  {
    var R, S, P := |g.rrMin|, |g.sessionFilter|, |g.maxSpread|;
    MulAddOne((i * R + j) * S + k, P);
    MulAddOne(i * R + j, S);
    MulAddOne(i, R);
    FlatLayout(|g.donchN|, 0, 0, 0, R, S, P);
  }

  /**
    One candidate per combination, in order, the first stamped with the
    clock reading of turn `first` and each later one with the next.
  */
  function Stamped(symbol: string, candles: seq<Candle>, combos: seq<Params>,
                   strategy: (seq<Candle>, Params) -> Metrics, clock: nat -> nat, first: nat): (cs: seq<Candidate>)
    ensures |cs| == |combos|
  {
    if |combos| == 0 then []
    else [BuildCandidate(symbol, combos[0], strategy(candles, combos[0]), clock(first))]
         + Stamped(symbol, candles, combos[1..], strategy, clock, first + 1)
  }

  lemma {:induction false} StampedAt(symbol: string, candles: seq<Candle>, combos: seq<Params>,
                                     strategy: (seq<Candle>, Params) -> Metrics, clock: nat -> nat, first: nat, n: nat)
    requires n < |combos|
    ensures Stamped(symbol, candles, combos, strategy, clock, first)[n]
         == BuildCandidate(symbol, combos[n], strategy(candles, combos[n]), clock(first + n))
    decreases n
  {
    if n > 0 {
      StampedAt(symbol, candles, combos[1..], strategy, clock, first + 1, n - 1);
    }
  }

  /** The candidates of a sweep: one per combination, stamped with the clock reading of its turn. */
  function Candidates(symbol: string, candles: seq<Candle>, g: Grid,
                      strategy: (seq<Candle>, Params) -> Metrics, clock: nat -> nat): (cs: seq<Candidate>)
    ensures |cs| == Size(g)
  {
    Stamped(symbol, candles, Combos(g), strategy, clock, 0)
  }

  /**
    Every candidate of the sweep carries the exact parameters of its
    combination, the metrics the strategy gives for them and an id naming
    them.
  */
  lemma CandidateAt(symbol: string, candles: seq<Candle>, g: Grid,
                    strategy: (seq<Candle>, Params) -> Metrics, clock: nat -> nat,
                    i: nat, j: nat, k: nat, l: nat)
    requires i < |g.donchN| && j < |g.rrMin| && k < |g.sessionFilter| && l < |g.maxSpread|
    ensures var n := Flat(g, i, j, k, l);
      var p := Params(g.donchN[i], g.rrMin[j], g.maxSpread[l], g.sessionFilter[k]);
      n < Size(g) && Candidates(symbol, candles, g, strategy, clock)[n]
        == Candidate(ModelId(symbol, p.donchN, p.rrMin, p.sessionFilter, clock(n)), symbol, p, strategy(candles, p))
  {
    ComboAt(g, i, j, k, l);
    StampedAt(symbol, candles, Combos(g), strategy, clock, 0, Flat(g, i, j, k, l));
  }

  /** The built-in grid has 18 combinations. */
  lemma DefaultGridSize()
    ensures BuildParamGrid<string>(None).value == DefaultGrid
    ensures Size(DefaultGrid) == 18
  {
  }

  /**
    The built-in sweep starts with Donchian length 20 and RR minimum 1.8 in
    the London session, then New York open, and only then moves to RR
    minimum 2.0: the session varies faster than the RR minimum, which
    varies faster than the Donchian length.  The last combination is
    Donchian length 40, RR minimum 2.5, New York open.
  */
  lemma DefaultOrder()
    ensures |Combos(DefaultGrid)| == 18
    ensures Combos(DefaultGrid)[0] == Params(20, 1.8, 2.5, "london")
    ensures Combos(DefaultGrid)[1] == Params(20, 1.8, 2.5, "nyopen")
    ensures Combos(DefaultGrid)[2] == Params(20, 2.0, 2.5, "london")
    ensures Combos(DefaultGrid)[6] == Params(30, 1.8, 2.5, "london")
    ensures Combos(DefaultGrid)[17] == Params(40, 2.5, 2.5, "nyopen")
  {
    var g := DefaultGrid;
    ComboAt(g, 0, 0, 0, 0);
    ComboAt(g, 0, 0, 1, 0);
    ComboAt(g, 0, 1, 0, 0);
    ComboAt(g, 1, 0, 0, 0);
    ComboAt(g, 2, 2, 1, 0);
  }

  /**
    A grid file replaces all four dimensions: nothing of the built-in grid
    survives, so a file with an empty dimension gives an empty sweep.
  */
  lemma GridFileReplaces<E>(g: Grid)
    ensures BuildParamGrid<E>(Some(Ok(g))) == Ok(g)
    ensures |g.donchN| == 0 || |g.rrMin| == 0 || |g.sessionFilter| == 0 || |g.maxSpread| == 0
      ==> |Combos(BuildParamGrid<E>(Some(Ok(g))).value)| == 0
  {
  }

  /**
    The sweep as the source writes it, four nested loops pushing one
    candidate per combination, verified against `Candidates`.  Each loop
    level is a method of its own.
  */
  method SweepLoop(symbol: string, candles: seq<Candle>, g: Grid,
                   strategy: (seq<Candle>, Params) -> Metrics, clock: nat -> nat)
    returns (all: seq<Candidate>)
    ensures all == Candidates(symbol, candles, g, strategy, clock)
  {
    ghost var want := Candidates(symbol, candles, g, strategy, clock);
    all := [];
    var i := 0;
    while i < |g.donchN|
      invariant i <= |g.donchN| && |all| == Flat(g, i, 0, 0, 0) && all <= want
    {
      all := RrLoop(symbol, candles, g, strategy, clock, i, all);
      i := i + 1;
    }
    FlatCarry(g, i, 0, 0);
  }

  /** The RR loop for Donchian length `i`: appends that length's candidates. */
  method RrLoop(symbol: string, candles: seq<Candle>, g: Grid,
                strategy: (seq<Candle>, Params) -> Metrics, clock: nat -> nat,
                i: nat, before: seq<Candidate>)
    returns (all: seq<Candidate>)
    requires i < |g.donchN|
    requires |before| == Flat(g, i, 0, 0, 0) && before <= Candidates(symbol, candles, g, strategy, clock)
    ensures |all| == Flat(g, i + 1, 0, 0, 0) && all <= Candidates(symbol, candles, g, strategy, clock)
  {
    all := before;
    var j := 0;
    while j < |g.rrMin|
      invariant j <= |g.rrMin| && |all| == Flat(g, i, j, 0, 0)
      invariant all <= Candidates(symbol, candles, g, strategy, clock)
    {
      all := SessionLoop(symbol, candles, g, strategy, clock, i, j, all);
      j := j + 1;
    }
    FlatCarry(g, i, j, 0);
  }

  /** The session loop for `(i, j)`. */
  method SessionLoop(symbol: string, candles: seq<Candle>, g: Grid,
                     strategy: (seq<Candle>, Params) -> Metrics, clock: nat -> nat,
                     i: nat, j: nat, before: seq<Candidate>)
    returns (all: seq<Candidate>)
    requires i < |g.donchN| && j < |g.rrMin|
    requires |before| == Flat(g, i, j, 0, 0) && before <= Candidates(symbol, candles, g, strategy, clock)
    ensures |all| == Flat(g, i, j + 1, 0, 0) && all <= Candidates(symbol, candles, g, strategy, clock)
  {
    all := before;
    var k := 0;
    while k < |g.sessionFilter|
      invariant k <= |g.sessionFilter| && |all| == Flat(g, i, j, k, 0)
      invariant all <= Candidates(symbol, candles, g, strategy, clock)
    {
      all := SpreadLoop(symbol, candles, g, strategy, clock, i, j, k, all);
      k := k + 1;
    }
    FlatCarry(g, i, j, k);
  }

  /** The innermost loop for `(i, j, k)`: run the strategy and build one candidate per spread cap. */
  method SpreadLoop(symbol: string, candles: seq<Candle>, g: Grid,
                    strategy: (seq<Candle>, Params) -> Metrics, clock: nat -> nat,
                    i: nat, j: nat, k: nat, before: seq<Candidate>)
    returns (all: seq<Candidate>)
    requires i < |g.donchN| && j < |g.rrMin| && k < |g.sessionFilter|
    requires |before| == Flat(g, i, j, k, 0) && before <= Candidates(symbol, candles, g, strategy, clock)
    ensures |all| == Flat(g, i, j, k + 1, 0) && all <= Candidates(symbol, candles, g, strategy, clock)
  {
    all := before;
    var l := 0;
    while l < |g.maxSpread|
      invariant l <= |g.maxSpread| && |all| == Flat(g, i, j, k, l)
      invariant all <= Candidates(symbol, candles, g, strategy, clock)
    {
      var p := Params(g.donchN[i], g.rrMin[j], g.maxSpread[l], g.sessionFilter[k]);
      var n := |all|;
      CandidateAt(symbol, candles, g, strategy, clock, i, j, k, l);
      all := all + [BuildCandidate(symbol, p, strategy(candles, p), clock(n))];
      FlatNext(g, i, j, k, l);
      l := l + 1;
    }
    FlatCarry(g, i, j, k);
  }
}

=== FILE: text.dfy ===
/**
  The three string operations the tick loader relies on, with the meaning
  they have in Rust's standard library: `str::split` on a single character,
  `str::contains` on a substring and `str::trim`.
*/
module Text {

  /** The number of occurrences of `c` in `s`. */
  function Occurrences(s: string, c: char): nat {
    if |s| == 0 then 0 else (if s[0] == c then 1 else 0) + Occurrences(s[1..], c)
  }

  /** The pieces separated by `sep`, glued back together with `sep` between them. */
  function Join(parts: seq<string>, sep: char): string
    requires |parts| > 0
  {
    if |parts| == 1 then parts[0] else parts[0] + [sep] + Join(parts[1..], sep)
  }

  /**
    `s.split(sep)`: the maximal pieces between occurrences of `sep`, in
    order.  There is always one piece more than there are separators, so the
    empty string gives one empty piece and a trailing separator gives a
    trailing empty piece.
  */
  function Split(s: string, sep: char): (parts: seq<string>)
    ensures |parts| == Occurrences(s, sep) + 1
  {
    if |s| == 0 then [""]
    else
      var rest := Split(s[1..], sep);
      if s[0] == sep then [""] + rest
      else [[s[0]] + rest[0]] + rest[1..]
  }

  /** The pieces are free of the separator and joining them gives back `s`. */
  lemma {:induction false} SplitPieces(s: string, sep: char)
    ensures var parts := Split(s, sep);
      (forall i :: 0 <= i < |parts| ==> sep !in parts[i]) && Join(parts, sep) == s
    decreases |s|
  {
    if |s| > 0 {
      var rest := Split(s[1..], sep);
      SplitPieces(s[1..], sep);
      if s[0] == sep {
        assert s == [sep] + s[1..];
        assert ([""] + rest)[1..] == rest;
      } else {
        var parts := [[s[0]] + rest[0]] + rest[1..];
        assert parts[1..] == rest[1..];
        assert s == [s[0]] + s[1..];
        assert forall i :: 1 <= i < |parts| ==> parts[i] == rest[i];
      }
    }
  }

  /** Splitting undoes joining, for pieces that do not contain the separator. */
  lemma {:induction false} SplitJoin(parts: seq<string>, sep: char)
    requires |parts| > 0
    requires forall i :: 0 <= i < |parts| ==> sep !in parts[i]
    ensures Split(Join(parts, sep), sep) == parts
    decreases |parts|
  {
    if |parts| == 1 {
      NoSeparator(parts[0], sep);
    } else {
      SplitJoin(parts[1..], sep);
      SplitAround(parts[0], Join(parts[1..], sep), sep);
      NoSeparator(parts[0], sep);
      assert parts == [parts[0]] + parts[1..];
    }
  }

  /** A string without the separator is a single piece. */
  lemma {:induction false} NoSeparator(s: string, sep: char)
    requires sep !in s
    ensures Split(s, sep) == [s]
    decreases |s|
  {
    if |s| > 0 {
      NoSeparator(s[1..], sep);
      assert [s[0]] + s[1..] == s;
    }
  }

  /** Splitting `x + sep + y` splits `x` and `y` separately. */
  lemma {:induction false} SplitAround(x: string, y: string, sep: char)
    ensures Split(x + [sep] + y, sep) == Split(x, sep) + Split(y, sep)
    decreases |x|
  {
    if |x| == 0 {
      assert x + [sep] + y == [sep] + y;
      assert ([sep] + y)[1..] == y;
    } else {
      var s := x + [sep] + y;
      assert s[0] == x[0];
      assert s[1..] == x[1..] + [sep] + y;
      SplitAround(x[1..], y, sep);
    }
  }

  /** `sub` occurs in `s` starting at position `i`. */
  predicate OccursAt(s: string, sub: string, i: int) {
    0 <= i && i + |sub| <= |s| && s[i..i + |sub|] == sub
  }

  /** `s.contains(sub)`: `sub` occurs in `s` at some position. */
  function Contains(s: string, sub: string): (r: bool)
    ensures r <==> exists i :: OccursAt(s, sub, i)
    decreases |s|
  {
    if |sub| <= |s| && s[..|sub|] == sub then
      assert OccursAt(s, sub, 0);
      true
    else if |s| == 0 then
      false
    else
      var r := Contains(s[1..], sub);
      assert r ==> exists i :: OccursAt(s, sub, i) by {
        if r {
          var i :| OccursAt(s[1..], sub, i);
          assert s[1..][i..i + |sub|] == s[i + 1..i + 1 + |sub|];
          assert OccursAt(s, sub, i + 1);
        }
      }
      assert (exists i :: OccursAt(s, sub, i)) ==> r by {
        if exists i :: OccursAt(s, sub, i) {
          var i :| OccursAt(s, sub, i);
          assert i > 0;
          assert s[1..][i - 1..i - 1 + |sub|] == s[i..i + |sub|];
          assert OccursAt(s[1..], sub, i - 1);
        }
      }
      r
  }

  /**
    `char::is_whitespace`: the characters with the Unicode White_Space
    property, which is what `str::trim` strips.
  */
  predicate IsWhitespace(c: char) {
    || '\t' <= c <= '\r'
    || c == ' '
    || c == '\U{0085}'
    || c == '\U{00A0}'
    || c == '\U{1680}'
    || '\U{2000}' <= c <= '\U{200A}'
    || c == '\U{2028}'
    || c == '\U{2029}'
    || c == '\U{202F}'
    || c == '\U{205F}'
    || c == '\U{3000}'
  }

  predicate AllWhitespace(s: string) {
    forall i :: 0 <= i < |s| ==> IsWhitespace(s[i])
  }

  /** `s.trim_start()`: `s` without its leading whitespace. */
  function TrimStart(s: string): (r: string)
    ensures |r| <= |s|
    decreases |s|
  {
    if |s| > 0 && IsWhitespace(s[0]) then TrimStart(s[1..]) else s
  }

  /** `s.trim_end()`: `s` without its trailing whitespace. */
  function TrimEnd(s: string): (r: string)
    ensures |r| <= |s|
    decreases |s|
  {
    if |s| > 0 && IsWhitespace(s[|s| - 1]) then TrimEnd(s[..|s| - 1]) else s
  }

  /** `s.trim()`: a piece of `s` that neither starts nor ends with whitespace. */
  function Trim(s: string): (r: string)
    ensures |r| <= |s|
    ensures |r| > 0 ==> !IsWhitespace(r[0]) && !IsWhitespace(r[|r| - 1])
  {
    TrimStartCuts(s);
    TrimEndCuts(TrimStart(s));
    var r := TrimEnd(TrimStart(s));
    assert |r| > 0 ==> r[0] == TrimStart(s)[0];
    r
  }

  /** `trim_start` cuts a whitespace prefix and stops at the first other character. */
  lemma {:induction false} TrimStartCuts(s: string)
    ensures var r := TrimStart(s);
      r == s[|s| - |r|..] && AllWhitespace(s[..|s| - |r|]) && (|r| > 0 ==> !IsWhitespace(r[0]))
    decreases |s|
  {
    if |s| > 0 && IsWhitespace(s[0]) {
      TrimStartCuts(s[1..]);
      var r := TrimStart(s[1..]);
      assert s[1..][..|s| - 1 - |r|] == s[1..|s| - |r|];
    }
  }

  /** `trim_end` cuts a whitespace suffix and stops at the last other character. */
  lemma {:induction false} TrimEndCuts(s: string)
    ensures var r := TrimEnd(s);
      r == s[..|r|] && AllWhitespace(s[|r|..]) && (|r| > 0 ==> !IsWhitespace(r[|r| - 1]))
    decreases |s|
  {
    if |s| > 0 && IsWhitespace(s[|s| - 1]) {
      TrimEndCuts(s[..|s| - 1]);
      var r := TrimEnd(s[..|s| - 1]);
      assert s[..|s| - 1][|r|..] + [s[|s| - 1]] == s[|r|..];
    }
  }

  /**
    `trim` cuts exactly the whitespace at both ends: the result is a slice of
    `s` that neither starts nor ends with whitespace, and everything cut off
    on either side is whitespace.
  */
  lemma {:induction false} TrimSlice(s: string)
    ensures var r := Trim(s);
      exists a :: 0 <= a <= |s| - |r| && r == s[a..a + |r|]
        && AllWhitespace(s[..a]) && AllWhitespace(s[a + |r|..])
        && (|r| > 0 ==> !IsWhitespace(r[0]) && !IsWhitespace(r[|r| - 1]))
  {
    var t := TrimStart(s);
    var r := TrimEnd(t);
    TrimStartCuts(s);
    TrimEndCuts(t);
    var a := |s| - |t|;
    assert r == s[a..a + |r|];
    assert s[a + |r|..] == t[|r|..];
    if |r| > 0 {
      assert r[0] == t[0];
    }
  }

  /** Trimming twice trims nothing more. */
  lemma {:induction false} TrimIdempotent(s: string)
    ensures Trim(Trim(s)) == Trim(s)
  {
    var r := Trim(s);
    TrimSlice(s);
    if |r| > 0 {
      assert TrimStart(r) == r;
      assert TrimEnd(r) == r;
    }
  }
}

=== FILE: tick_loader.dfy ===
/**
  The line logic of `load_ticks`: a tick file is read line by line, an
  optional header on the first line is skipped, every line is split on
  commas, lines with fewer than three fields are dropped and the first three
  fields of every other line become a tick.

  Opening and reading the file is not modelled: the input is the sequence
  the line reader yields, each entry either the text of a line (without its
  line terminator) or the read error that aborts the load.  The numeric
  parsers are parameters, since what `str::parse` accepts is not part of
  this model; a field the parser rejects becomes zero.
*/
module TickLoader {
  import opened Wrappers
  import opened Market
  import opened Text

  /** The parsers for the timestamp field and the two price fields; `None` means rejected. */
  datatype Parsers = Parsers(timestamp: string -> Option<nat>, price: string -> Option<real>)

  /** `unwrap_or(zero)`. */
  function OrZero<T>(o: Option<T>, zero: T): (v: T)
    ensures o.Some? ==> v == o.value
    ensures o.None? ==> v == zero
  {
    match o
    case Some(v) => v
    case None => zero
  }

  /** The tick made of three fields, each trimmed before it is parsed. */
  function FieldsTick(ts: string, bid: string, ask: string, p: Parsers): (t: Tick)
    ensures p.timestamp(Trim(ts)).Some? ==> t.tsMs == p.timestamp(Trim(ts)).value
    ensures p.timestamp(Trim(ts)).None? ==> t.tsMs == 0
    ensures p.price(Trim(bid)).Some? ==> t.bid == p.price(Trim(bid)).value
    ensures p.price(Trim(bid)).None? ==> t.bid == 0.0
    ensures p.price(Trim(ask)).Some? ==> t.ask == p.price(Trim(ask)).value
    ensures p.price(Trim(ask)).None? ==> t.ask == 0.0
  {
    Tick(OrZero(p.timestamp(Trim(ts)), 0),
         OrZero(p.price(Trim(bid)), 0.0),
         OrZero(p.price(Trim(ask)), 0.0))
  }

  /** Whitespace around a field does not change the tick: the parsers only see the trimmed text. */
  lemma SurroundingSpaceIgnored(ts: string, bid: string, ask: string, p: Parsers)
    ensures FieldsTick(Trim(ts), Trim(bid), Trim(ask), p) == FieldsTick(ts, bid, ask, p)
  {
    TrimIdempotent(ts);
    TrimIdempotent(bid);
    TrimIdempotent(ask);
  }

  /** The first line is a header when it mentions all three column names. */
  function IsHeader(line: string): (r: bool)
    ensures r <==> (exists i :: OccursAt(line, "ts_ms", i)) && (exists j :: OccursAt(line, "bid", j))
                   && (exists k :: OccursAt(line, "ask", k))
    ensures r ==> |line| >= 5
  {
    Contains(line, "ts_ms") && Contains(line, "bid") && Contains(line, "ask")
  }

  /**
    One data line: `None` when it has fewer than three comma-separated
    fields, which is exactly when it has fewer than two commas.
  */
  function ParseLine(line: string, p: Parsers): (r: Option<Tick>)
    ensures r.None? <==> Occurrences(line, ',') < 2
  {
    var parts := Split(line, ',');
    if |parts| < 3 then None
    else Some(FieldsTick(parts[0], parts[1], parts[2], p))
  }

  /** The ticks of a run of data lines, in line order; no header rule. */
  function ParseRows(lines: seq<string>, p: Parsers): (ticks: seq<Tick>)
    ensures |ticks| <= |lines|
    ensures |ticks| == |lines| <==> forall i :: 0 <= i < |lines| ==> Occurrences(lines[i], ',') >= 2
  {
    if |lines| == 0 then []
    else
      var rest := ParseRows(lines[1..], p);
      var head := ParseLine(lines[0], p);
      assert |rest| == |lines| - 1 <==> forall i :: 1 <= i < |lines| ==> Occurrences(lines[i], ',') >= 2 by {
        assert forall i :: 1 <= i < |lines| ==> lines[1..][i - 1] == lines[i];
      }
      if head.Some? then [head.value] + rest else rest
  }

  /** The ticks of a whole file's lines: a header is recognised on the first line only. */
  function LoadLines(lines: seq<string>, p: Parsers): (ticks: seq<Tick>)
    ensures |ticks| <= |lines|
    ensures |lines| > 0 && IsHeader(lines[0]) ==> |ticks| < |lines|
  {
    if |lines| > 0 && IsHeader(lines[0]) then ParseRows(lines[1..], p)
    else ParseRows(lines, p)
  }

  /**
    The texts of the lines, or the first read error.  The load fails
    exactly when some line failed to read, and then with the first failure.
  */
  function Texts<E>(lines: seq<Result<string, E>>): (r: Result<seq<string>, E>)
    ensures r.Ok? <==> forall i :: 0 <= i < |lines| ==> lines[i].Ok?
    ensures r.Ok? ==> |r.value| == |lines| && forall i :: 0 <= i < |lines| ==> r.value[i] == lines[i].value
    ensures r.Err? ==>
      exists i :: (0 <= i < |lines| && lines[i] == Err(r.error) && forall j :: 0 <= j < i ==> lines[j].Ok?)
  {
    if |lines| == 0 then Ok([])
    else if lines[0].Err? then Err(lines[0].error)
    else
      var rest := Texts(lines[1..]);
      assert forall i :: 1 <= i < |lines| ==> lines[1..][i - 1] == lines[i];
      match rest
      case Err(e) =>
        assert exists i :: 1 <= i < |lines| && lines[i] == Err(e) && (forall j :: 0 <= j < i ==> lines[j].Ok?) by {
          var k :| 0 <= k < |lines[1..]| && lines[1..][k] == Err(e) && (forall j :: 0 <= j < k ==> lines[1..][j].Ok?);
          assert lines[k + 1] == Err(e);
        }
        Err(e)
      case Ok(ts) => Ok([lines[0].value] + ts)
  }

  /** `load_ticks` after the file is open: the first read error aborts the load. */
  function LoadTicks<E>(lines: seq<Result<string, E>>, p: Parsers): (r: Result<seq<Tick>, E>)
    ensures r.Ok? <==> forall i :: 0 <= i < |lines| ==> lines[i].Ok?
    ensures r.Ok? ==> |r.value| <= |lines|
  {
    match Texts(lines)
    case Err(e) => Err(e)
    case Ok(texts) => Ok(LoadLines(texts, p))
  }

  /** The first three pieces of `ts,bid,ask` followed by nothing or by more fields. */
  lemma {:induction false} LeadingFields(ts: string, bid: string, ask: string, tail: string)
    requires ',' !in ts && ',' !in bid && ',' !in ask
    requires tail == [] || tail[0] == ','
    ensures var parts := Split(ts + [','] + bid + [','] + ask + tail, ',');
      |parts| >= 3 && parts[0] == ts && parts[1] == bid && parts[2] == ask
  {
    var line := ts + [','] + bid + [','] + ask + tail;
    var rest := bid + [','] + (ask + tail);
    assert line == ts + [','] + rest;
    SplitAround(ts, rest, ',');
    SplitAround(bid, ask + tail, ',');
    NoSeparator(ts, ',');
    NoSeparator(bid, ',');
    var last := Split(ask + tail, ',');
    if tail == [] {
      assert ask + tail == ask;
      NoSeparator(ask, ',');
    } else {
      assert ask + tail == ask + [','] + tail[1..];
      SplitAround(ask, tail[1..], ',');
      NoSeparator(ask, ',');
    }
    assert last[0] == ask;
    assert Split(line, ',') == [ts] + ([bid] + last);
  }

  /** A line of three or more fields yields the tick of its first three fields; the rest are ignored. */
  lemma ExtraFieldsIgnored(ts: string, bid: string, ask: string, tail: string, p: Parsers)
    requires ',' !in ts && ',' !in bid && ',' !in ask
    requires tail == [] || tail[0] == ','
    ensures ParseLine(ts + [','] + bid + [','] + ask + tail, p) == Some(FieldsTick(ts, bid, ask, p))
  {
    LeadingFields(ts, bid, ask, tail);
  }

  /** Parsing distributes over concatenation of line runs, so each line is parsed on its own. */
  lemma {:induction false} ParseRowsAppend(a: seq<string>, b: seq<string>, p: Parsers)
    ensures ParseRows(a + b, p) == ParseRows(a, p) + ParseRows(b, p)
    decreases |a|
  {
    if |a| > 0 {
      var h := ParseLine(a[0], p);
      assert (a + b)[0] == a[0];
      assert (a + b)[1..] == a[1..] + b;
      ParseRowsAppend(a[1..], b, p);
      if h.Some? {
        assert ParseRows(a + b, p) == [h.value] + ParseRows(a[1..] + b, p);
        assert ParseRows(a, p) == [h.value] + ParseRows(a[1..], p);
      } else {
        assert ParseRows(a + b, p) == ParseRows(a[1..] + b, p);
        assert ParseRows(a, p) == ParseRows(a[1..], p);
      }
    } else {
      assert a + b == b;
    }
  }

  /** The header rule concerns the first line only: later lines are all parsed as data. */
  lemma {:induction false} HeaderOnlyFirst(a: seq<string>, b: seq<string>, p: Parsers)
    requires |a| > 0
    ensures LoadLines(a + b, p) == LoadLines(a, p) + ParseRows(b, p)
  {
    assert (a + b)[0] == a[0];
    if IsHeader(a[0]) {
      assert (a + b)[1..] == a[1..] + b;
      ParseRowsAppend(a[1..], b, p);
    } else {
      ParseRowsAppend(a, b, p);
    }
  }

  /** A leading header line contributes nothing; the remaining lines are parsed as data. */
  lemma HeaderSkipped(header: string, rest: seq<string>, p: Parsers)
    requires IsHeader(header)
    ensures LoadLines([header] + rest, p) == ParseRows(rest, p)
  {
    assert ([header] + rest)[1..] == rest;
  }

  /** A field with no whitespace at either end is left alone by `trim`. */
  lemma TrimmedField(s: string)
    requires |s| > 0 && !IsWhitespace(s[0]) && !IsWhitespace(s[|s| - 1])
    ensures Trim(s) == s
  {
  }

  lemma HeaderSpelling()
    ensures "ts_ms" + [','] + "bid" + [','] + "ask" + "" == "ts_ms,bid,ask"
  {
  }

  /** The header line splits into its three column names. */
  lemma HeaderLineFields(p: Parsers)
    ensures ParseLine("ts_ms,bid,ask", p) == Some(FieldsTick("ts_ms", "bid", "ask", p))
  {
    HeaderSpelling();
    ExtraFieldsIgnored("ts_ms", "bid", "ask", "", p);
  }

  /** Column names the parsers reject all become zero. */
  lemma RejectedNamesAreZero(p: Parsers)
    requires p.timestamp("ts_ms") == None && p.price("bid") == None && p.price("ask") == None
    ensures FieldsTick("ts_ms", "bid", "ask", p) == Tick(0, 0.0, 0.0)
  {
    TrimmedField("ts_ms");
    TrimmedField("bid");
    TrimmedField("ask");
  }

  /**
    A repeated header further down is not skipped: with parsers that reject
    the column names it becomes an all-zero tick.
  */
  lemma RepeatedHeaderIsZeroTick(a: seq<string>, p: Parsers)
    requires |a| > 0
    requires p.timestamp("ts_ms") == None && p.price("bid") == None && p.price("ask") == None
    ensures LoadLines(a + ["ts_ms,bid,ask"], p) == LoadLines(a, p) + [Tick(0, 0.0, 0.0)]
  {
    var header := "ts_ms,bid,ask";
    HeaderOnlyFirst(a, [header], p);
    assert ParseRows([header], p) == [Tick(0, 0.0, 0.0)] by {
      HeaderLineFields(p);
      RejectedNamesAreZero(p);
      assert [header][1..] == [];
    }
  }

  /** Reading one more line that succeeded extends the texts by that line. */
  lemma TextsSnoc<E>(lines: seq<Result<string, E>>, line: string)
    requires Texts(lines).Ok?
    ensures Texts(lines + [Ok(line)]) == Ok(Texts(lines).value + [line])
  {
    var all := lines + [Ok(line)];
    assert forall k :: 0 <= k < |lines| ==> all[k] == lines[k];
    assert Texts(all).Ok?;
    var want := Texts(lines).value + [line];
    assert forall k :: 0 <= k < |all| ==> Texts(all).value[k] == want[k];
    assert Texts(all).value == want;
  }

  /** The first failed read decides the result. */
  lemma TextsFailAt<E>(lines: seq<Result<string, E>>, i: nat)
    requires i < |lines| && lines[i].Err?
    requires Texts(lines[..i]).Ok?
    ensures Texts(lines) == Err(lines[i].error)
  {
    assert forall k :: 0 <= k < i ==> lines[..i][k] == lines[k];
  }

  /** One more line: it is skipped if it is a header in first position, and parsed as data otherwise. */
  lemma LoadLinesSnoc(texts: seq<string>, line: string, p: Parsers)
    ensures LoadLines(texts + [line], p)
      == LoadLines(texts, p) + (if |texts| == 0 && IsHeader(line) then [] else ParseRows([line], p))
  {
    if |texts| > 0 {
      HeaderOnlyFirst(texts, [line], p);
    } else {
      assert texts + [line] == [line];
      assert [line][1..] == [];
    }
  }

  /** A single data line gives its tick, or nothing when it has fewer than three fields. */
  lemma ParseOne(line: string, p: Parsers)
    ensures var parts := Split(line, ',');
      ParseRows([line], p) == if |parts| < 3 then [] else [FieldsTick(parts[0], parts[1], parts[2], p)]
  {
    assert [line][1..] == [];
  }

  /** The `for` loop of `load_ticks`, line by line, verified against `LoadTicks`. */
  method LoadTicksLoop<E>(lines: seq<Result<string, E>>, p: Parsers) returns (r: Result<seq<Tick>, E>)
    ensures r == LoadTicks(lines, p)
  {
    var out: seq<Tick> := [];
    ghost var texts: seq<string> := [];
    var i := 0;
    while i < |lines|
      invariant 0 <= i <= |lines| && |texts| == i
      invariant Texts(lines[..i]) == Ok(texts)
      invariant out == LoadLines(texts, p)
    {
      if lines[i].Err? {
        TextsFailAt(lines, i);
        return Err(lines[i].error);
      }
      var line := lines[i].value;
      assert lines[..i + 1] == lines[..i] + [Ok(line)];
      TextsSnoc(lines[..i], line);
      LoadLinesSnoc(texts, line, p);
      texts := texts + [line];
      i := i + 1;
      if i == 1 {
        if IsHeader(line) {
          continue;
        }
      }
      ParseOne(line, p);
      var parts := Split(line, ',');
      if |parts| < 3 {
        continue;
      }
      out := out + [FieldsTick(parts[0], parts[1], parts[2], p)];
    }
    assert lines[..i] == lines;
    return Ok(out);
  }
}

=== FILE: wrappers.dfy ===
/** Small failure-carrying datatypes shared by the other modules. */
module Wrappers {

  /** An optional value: the source's `Option`, or "no value produced". */
  datatype Option<+T> = None | Some(value: T)

  /** A value or an error, the shape of the source's `anyhow::Result`. */
  datatype Result<+R, +E> = Ok(value: R) | Err(error: E)
}
